=== FILE: README.md ===
# Game jam boilerplate — a verified model of its game rules

This project models the deterministic core of a small JavaScript canvas game
template:

- the per-frame rules of `src/js/game.js`:
  - the AABB overlap test and the one-axis "wall slide" correction;
  - clamping the hero to the 640×480 map;
  - the edge-snapping camera window (a 320×240 view with margins 100/50);
  - entity animation and movement;
  - the keyboard velocity ramp;
  - the title → game → end → title screen machine with its 60 s countdown;
- the press-time table of `src/js/inputs/keyboard.js`, including the
  consume-on-read `isKeyUp`;
- the pointer drag normaliser of `src/js/inputs/pointer.js` (`setTouchVector`
  and the pointer event handlers);
- the interpolation and seeded-random helpers of `src/js/utils.js`:
  - `lerp`, `lerpArray` and `smoothLerpArray`;
  - the xfnv1a hash and Lehmer generator of `seedRand`;
  - `rand`, `randInt` and `choice`;
- the rectangle utilities of `src/js/utils/dim.js`;
- the glyph-placement arithmetic of `renderText` in `src/js/text.js`.

The Dafny modules follow the JavaScript files. `game.js` and `utils.js` each
mix several concerns, so each is split into several Dafny modules:

| Dafny module | File | Source it models |
|---|---|---|
| `Js` | `js.dfy` | JavaScript value semantics the others need: `undefined`, `Math.floor`, `Math.ceil`, `Math.max`, `Math.min` and array reads |
| `Interpolation` | `interpolation.dfy` | the interpolation helpers of `utils.js` |
| `Prng` | `prng.dfy` | the random helpers of `utils.js` |
| `Dim` | `dim.dfy` | `utils/dim.js` |
| `Text` | `text.dfy` | `text.js` |
| `Keyboard` | `keyboard.dfy` | `inputs/keyboard.js` |
| `Pointer` | `pointer.dfy` | `inputs/pointer.js` |
| `Entity` | `entity.dfy` | the entity parts of `game.js` |
| `Collision` | `collision.dfy` | the collision parts of `game.js` |
| `Camera` | `camera.dfy` | the camera parts of `game.js` |
| `Game` | `game.dfy` | the screen machine of `game.js` |

How the model represents the source:

- **Mutable module state.** The variables the JavaScript modules mutate are
  immutable records here: `GameState`, `PointerState` and the key map. Each
  handler or frame is a pure function from the old record to the new one.
- **Numbers.**
  - Positions, times and velocities are `real`, not IEEE doubles.
  - The hash and generator of `seedRand` are exact 32-bit arithmetic on `bv32`.
  - Strings fed to the hash are sequences of UTF-16 code units (`bv16`), which is what `charCodeAt` reads.
- **Clock and randomness.** `performance.now()` becomes a `currentTime`
  parameter (ms). The frame's `elapsedTime` becomes an `elapsed` parameter
  (seconds). The output of `prng()` becomes a parameter `p` in [0, 1).
- **Drawing.** `drawImage` is a sink. `renderText` returns the list of
  `Draw` records holding the arguments it would have passed.
- **Inputs.** Key and pointer events are inputs (`Game.Input`).
  `Game.Run` interleaves them with frames.

Where the code and its comments or intent differ, the model follows the code:

- `isKeyDown` reads a single code. The alias codes game.js passes to it
  (`'KeyA'`, `'KeyQ'`, `'KeyD'`, `'KeyW'`, `'KeyZ'`, `'KeyS'`) are therefore
  ignored, and only the arrow keys steer.
- Releasing a key deletes its press time; no release time is recorded.
  When both keys of an axis are pressed, the later press wins until one of them is released.
- `isPointerUp` evaluates `pointerDownTime = 0 || true`. It therefore leaves
  the press active (it sets the time to `true`) instead of consuming it.
  `Pointer.IsPointerUp` models this literally.
- On the title screen, `isKeyUp(konamiCode[konamiIndex])` runs before
  `anyKeyDown()`. When the pressed key is the next key of the Konami
  sequence, that key is consumed and does not start the game. Past the end of
  the sequence the array read is `undefined`, and the key table is looked up
  under the name `"undefined"`.
- game.js imports `anyKeyDown` from `./inputs/keyboard`, but that module
  exports only `isAnyKeyDown` (inputs/keyboard.js:12). The import names a
  missing export. The model binds the call to `Keyboard.IsAnyKeyDown`, the
  evidently intended function.
- `startGame` runs inside `processInputs`, and `update` then runs the game
  screen branch in the same frame. A title-screen frame can therefore go
  straight to the end screen if its elapsed time exceeds the whole round.
- The second edge-snap condition of `updateCameraWindow` compares the
  window's right edge with the map width. For a camera on the map this
  condition always holds, and `Math.min` does the clamping.

## Model

| member | source | states |
|---|---|---|
| Interpolation.Lerp | src/js/utils.js:87-91 | t ≤ 0 gives min; t ≥ 1 gives max; the result lies between min and max in either order; inside [0, 1] it is min + (max − min)·t |
| Interpolation.LerpMonotone | src/js/utils.js:87-91 | for min ≤ max, lerp never decreases as t grows |
| Interpolation.LerpArray | src/js/utils.js:98-103 | undefined exactly for an empty array; otherwise an element of the array, the first for t ≤ 0 and the last for t ≥ 1 |
| Interpolation.LerpArrayIndexInBounds | src/js/utils.js:102 | for t in [0, 1] the index floor((n−1)t) is within a non-empty array |
| Interpolation.LerpArrayAtKnot | src/js/utils.js:98-103 | at t = k/(n−1), in exact arithmetic, lerpArray returns the k-th element |
| Interpolation.SmoothLerpArray | src/js/utils.js:110-120 | no number exactly for an empty array (undefined for t ≤ 0 or t ≥ 1, NaN in between, both shown as undefined); otherwise the first element for t ≤ 0 and the last for t ≥ 1 |
| Interpolation.Between | src/js/utils.js:114-119 | for 0 < t < 1, floor and ceil of (n−1)t are in-bounds indices and the result lies between those two elements |
| Interpolation.SmoothIndicesInBounds | src/js/utils.js:114-118 | the floor and ceil indices are in bounds and at most one apart; the interpolation weight is in [0, 1) |
| Interpolation.SmoothLerpArrayAtKnot | src/js/utils.js:110-120 | at t = k/(n−1), in exact arithmetic, smoothLerpArray passes through the k-th element |
| Prng.FnvSnoc | src/js/utils.js:47-49 | hashing one more code unit is one more imul/xor mixing step on the previous hash |
| Prng.SeedHash | src/js/utils.js:47-52 | the loop computes the finaliser applied to the xfnv1a fold of the string from 2166136261, mod 2^32 |
| Prng.ZeroSeedIsAbsorbing | src/js/utils.js:56 | a zero seed draws 0 and stays zero, so that generator is stuck |
| Prng.Draw | src/js/utils.js:56 | a draw advances the seed to imul(48271, seed) and returns its low 31 bits over 2^31, a value in [0, 1) |
| Prng.SeedRand | src/js/utils.js:41-59 | the generator starts from the hashed seed after one discarded draw |
| Prng.Draws | src/js/utils.js:56-58 | n successive draws: exactly n values, all in [0, 1), the first being the next draw |
| Prng.KontraFirstDraw | src/js/utils.js:30-31 | seedRand('kontra') first returns 725032550/2^31 ≈ 0.33761959057301283 |
| Prng.Rand | src/js/utils.js:67-69 | for p in [0, 1) and min ≤ max the result lies in [min, max + 1) |
| Prng.RandInt | src/js/utils.js:71-73 | for p in [0, 1) and integers min ≤ max the result is an integer in [min, max] |
| Prng.RandDefault | src/js/utils.js:67-69 | with the default arguments min = 0 and max = 1, rand() is twice the prng() value, so it lies in [0, 2) |
| Prng.RandIntDefault | src/js/utils.js:71-73 | with the default arguments min = 0 and max = 1, randInt() is 0 exactly when prng() is below 1/2 and 1 otherwise |
| Prng.RandIntBucket | src/js/utils.js:67-73 | randInt yields min + k exactly when p is in [k/span, (k+1)/span), so every value has an equal share of [0, 1) |
| Prng.Choice | src/js/utils.js:75-77 | empty array gives undefined; otherwise an element of the array |
| Dim.Right | src/js/utils/dim.js:19-21 | left ≤ right and right − left = \|width\| for either sign of width |
| Dim.Bottom | src/js/utils/dim.js:20-22 | top ≤ bottom and bottom − top = \|height\| for either sign of height |
| Dim.ContainsCorners | src/js/utils/dim.js:24 | `Dim.Contains` models contains; it is edge-inclusive: the normalised top-left and bottom-right corners, and the defining corners (x, y) and (x + width, y + height), are contained |
| Dim.IntersectsSymmetric | src/js/utils/dim.js:25 | `Dim.Intersects` models intersects; intersects(a, b) iff intersects(b, a) |
| Dim.TouchingDoesNotIntersect | src/js/utils/dim.js:25 | rectangles sharing only an edge do not intersect |
| Dim.IntersectsIffCommonInteriorPoint | src/js/utils/dim.js:25 | for non-degenerate rectangles, intersects iff some point is strictly inside both |
| Dim.Intersection | src/js/utils/dim.js:26-37 | no intersection gives rect(0, 0, 0, 0); otherwise a non-negative size (positive for non-degenerate inputs) with bounds inside both inputs |
| Dim.IntersectionCommutes | src/js/utils/dim.js:26-37 | intersection(a, b) equals intersection(b, a) |
| Dim.IntersectionContainsIffBoth | src/js/utils/dim.js:26-37 | for intersecting rectangles, a point is in the intersection iff it is in both |
| Text.IndexOf | src/js/text.js:35 | indexOf is −1 exactly when the character is absent; otherwise the position of its first occurrence |
| Text.Utf16Length | src/js/text.js:27 | msg.length is between the number of characters and twice it, and equals it without astral characters |
| Text.SpriteX | src/js/text.js:35 | the sprite x is non-negative iff the character is in ALPHABET, then below 43·8; otherwise −8 |
| Text.GlyphXStep | src/js/text.js:36 | consecutive glyphs are one scaled size apart |
| Text.Layout | src/js/text.js:31-38 | one draw per character, each from the character's sprite cell to its slot on the line |
| Text.RenderText | src/js/text.js:25-39 | exactly one draw per character, all at y with size scale·8, glyph i at x + i·scale·8 − the alignment offset |
| Text.RenderTextDefault | src/js/text.js:25 | the defaults are left alignment and scale 1: glyph i at x + 8i with size 8 |
| Text.GlyphsAbut | src/js/text.js:26-36 | each glyph starts where the previous one ends |
| Text.AlignLeftStartsAtX | src/js/text.js:28-36 | left alignment: the first glyph starts at x |
| Text.AlignRightEndsAtX | src/js/text.js:26-36 | right alignment: for messages without astral (non-BMP) characters, the last glyph ends exactly at x |
| Text.AlignCenterCentresOnX | src/js/text.js:26-36 | centre alignment: for messages without astral (non-BMP) characters, the midpoint between the first glyph's left edge and the last glyph's right edge is x |
| Text.AstralCharacterMisaligns | src/js/text.js:26-36 | the width is counted in UTF-16 units but glyphs per code point: a lone astral character right-aligned at 0 ends at −8, and centred at 0 has its midpoint at −4 |
| Keyboard.OnKeyDown | src/js/inputs/keyboard.js:21-28 | a repeat leaves the table unchanged; otherwise the code is stamped with now and every other entry is untouched |
| Keyboard.ReleaseKey | src/js/inputs/keyboard.js:19 | the code is removed and every other entry is untouched |
| Keyboard.OnKeyUp | src/js/inputs/keyboard.js:30 | afterwards the code reads 0 and every other code reads as before |
| Keyboard.IsKeyDown | src/js/inputs/keyboard.js:8 | the stored press time, or 0 for an absent code |
| Keyboard.KeysDown | src/js/inputs/keyboard.js:10 | exactly the codes whose press time is non-zero |
| Keyboard.IsAnyKeyDown | src/js/inputs/keyboard.js:10-12 | the number of codes whose press time is non-zero; positive iff some key is down |
| Keyboard.IsKeyUp | src/js/inputs/keyboard.js:15 | true iff the key was down, and then the key is released; otherwise the table is unchanged |
| Keyboard.PressThenRead | src/js/inputs/keyboard.js:8-28 | after a non-repeat press the code reads the press time and other codes are unaffected; a repeat changes nothing |
| Keyboard.IsKeyUpConsumes | src/js/inputs/keyboard.js:15-19 | a pressed key is reported up once; a second isKeyUp reports false |
| Keyboard.ReleaseCountsDown | src/js/inputs/keyboard.js:10-19 | releasing a pressed key lowers the count of keys down by exactly one; releasing another leaves it |
| Pointer.SetTouchAxis | src/js/inputs/pointer.js:62-106 | position kept inside [min, max]; velocity stays in [−1, 1]; further out ramps it to ±1 over 30 px; a reversal zeroes it and collapses that side; otherwise nothing changes |
| Pointer.SetTouchVector | src/js/inputs/pointer.js:62-106 | the X update depends only on X state and the Y update only on Y state |
| Pointer.OnPointerDown | src/js/inputs/pointer.js:34-39 | position, min and max all become the press location on each axis, the velocity is kept, and the press time is now |
| Pointer.OnPointerMove | src/js/inputs/pointer.js:41-51 | nothing changes while no press is active; otherwise the new location goes through setTouchVector |
| Pointer.OnPointerUp | src/js/inputs/pointer.js:53-58 | every coordinate, extent and velocity is zero and no press is active |
| Pointer.IsPointerUp | src/js/inputs/pointer.js:113 | true iff a press is active; the press stays active and the axes are unchanged |
| Pointer.PointerDirection | src/js/inputs/pointer.js:129 | under the pointer invariant both components lie in [−1, 1] |
| Pointer.IsPointerUpDoesNotConsume | src/js/inputs/pointer.js:111-113 | `Pointer.IsPointerDown` models isPointerDown (a truthy press time); a press is reported up on every call, not once |
| Pointer.HandlePreservesInvariant | src/js/inputs/pointer.js:34-106 | every pointer event keeps min ≤ position ≤ max and velocity in [−1, 1] on both axes |
| Pointer.InvariantAlways | src/js/inputs/pointer.js:34-106 | the pointer invariant holds after any sequence of events |
| Pointer.MovesWhileUpAreIgnored | src/js/inputs/pointer.js:41-51 | without an active press, any number of moves leaves the state unchanged |
| Entity.MoveFrames | src/js/game.js:58-75 | every atlas entry has at least one 16×18 frame |
| Entity.CreateEntity | src/js/game.js:265-285 | a well-formed entity at (x, y) on its first frame, at rest, sized after its first sprite |
| Entity.DiagonalScale | src/js/game.js:296 | the scale is in (0, 1], and it is 1 iff at most one velocity component is non-zero |
| Entity.UpdateEntity | src/js/game.js:287-300 | only frame, frame time and position change; the frame stays or advances by one modulo the frame count and stays in range; frame time is conserved modulo one frame duration; no velocity or zero speed leaves the position unchanged |
| Entity.DisplacementPerAxis | src/js/game.js:296-299 | each axis moves by speed·elapsed·scale·velocity |
| Entity.DiagonalTravelIsReduced | src/js/game.js:296-299 | moving diagonally, each axis covers strictly less than speed·elapsed |
| Entity.UpdatePreservesWellFormed | src/js/game.js:287-299 | updateEntity keeps an entity well-formed |
| Collision.TestAabbCollision | src/js/game.js:118-132 | the far corners are x + w and y + h, and collide iff the boxes overlap strictly on both axes |
| Collision.CollideSymmetric | src/js/game.js:126-129 | swapping the entities gives the same verdict |
| Collision.CollideIsRectIntersects | src/js/game.js:118-132 | for positive sizes the test agrees with rect.intersects |
| Collision.CorrectAabbCollision | src/js/game.js:135-202 | only the first entity's x and y may change, at least one of them is kept, and an entity at rest is unchanged |
| Collision.CorrectionMovesExactlyOneAxis | src/js/game.js:146-201 | a detected collision of a moving entity is corrected on exactly one axis |
| Collision.CorrectionEndsFlush | src/js/game.js:146-201 | the corrected side ends flush against the obstacle side it hit (e.g. moving right gives x = obstacle.x − w) |
| Collision.CorrectionSeparates | src/js/game.js:146-201 | after correcting a detected collision of a moving entity, a re-test reports no collision |
| Collision.DiagonalPushIsShallowest | src/js/game.js:147-189 | moving diagonally, the push is along the axis with the smaller penetration (ties go to the vertical axis) |
| Collision.ResolveHeroCollisions | src/js/game.js:378-383 | the pass over the other entities changes only the hero's position and leaves a hero at rest unchanged |
| Collision.ResolveSingleSeparates | src/js/game.js:378-383 | against a single obstacle a moving hero ends clear of it |
| Camera.ClampAxis | src/js/game.js:205-214 | the result lies in [0, map − size] when the entity fits, and a position already inside is unchanged |
| Camera.ClampAxisIsNearest | src/js/game.js:205-214 | the clamped position is the allowed position nearest to the original |
| Camera.ConstrainToViewport | src/js/game.js:204-215 | only x and y change; an entity that fits ends inside 640×480; one already on the map is unchanged |
| Camera.ConstrainIdempotent | src/js/game.js:204-215 | constraining twice equals constraining once |
| Camera.SnapAxisInBounds | src/js/game.js:226-237 | `Camera.SnapAxis` models one axis of the edge snap; the snap keeps the camera within [0, map − view] |
| Camera.SnapAxisDeadZone | src/js/game.js:226-237 | a hero inside the window does not move the camera |
| Camera.SnapAxisTracks | src/js/game.js:226-237 | after the snap the hero is inside the window unless the camera is held at a map edge |
| Camera.UpdateCameraWindow | src/js/game.js:218-238 | keeps the camera within [0, 320] × [0, 240] and does not move it while the hero is inside the window |
| Camera.CameraTracksHero | src/js/game.js:218-238 | for a hero no larger than the window, after the update the hero is inside the window on each axis or the camera is at that axis's map edge |
| Game.KeyboardVelocity | src/js/game.js:340-349 | 0 with no key; always in [−1, 1]; negative only when the negative key is the later press; 0 at the later press; ±1 from 150 ms after it; linear between |
| Game.KeyboardVelocitySign | src/js/game.js:340-349 | negative iff the negative key is the strictly later press and time has passed since it; positive iff the positive key is at least as recent and time has passed |
| Game.KeyboardVelocityRampMonotone | src/js/game.js:341 | while the same key is the latest press, the speed never decreases with time |
| Game.KeyboardSteer | src/js/game.js:320-349 | the move fields are the arrow keys' press times, each velocity follows the ramp and lies in [−1, 1], and nothing else changes |
| Game.StartGame | src/js/game.js:93-116 | game screen, countdown 60, camera (0, 0), Konami index 0, twelve well-formed entities at rest with the hero first at (160, 120); the input state is kept |
| Game.ProcessInputs | src/js/game.js:307-366 | the share flag is raised iff on the end screen with KeyT down; the Konami index only changes on the title screen; the hero exists whenever the game screen needs it |
| Game.GameFrame | src/js/game.js:372-386 | the countdown drops by elapsed and the end screen follows exactly when it turns negative; every other entity is advanced once; the hero is advanced and only moved further; the hero ends on the map; the camera stays on the map |
| Game.Update | src/js/game.js:368-388 | a frame keeps the hero present whenever the game screen is showing |
| Game.ScreenTransitions | src/js/game.js:307-388 | a frame stays on its screen or moves one step along title → game → end → title; title → end happens only when elapsed exceeds 60 s |
| Game.CountdownEndsRound | src/js/game.js:373-376 | on the game screen the countdown drops by elapsed, and the round ends iff it falls below zero |
| Game.TitleStartsRound | src/js/game.js:309-316 | the title screen is left iff a key is down after the Konami key is consumed or the pointer is down; the new round has then run one frame (countdown 60 − elapsed, twelve entities) and is already on the end screen iff that frame was longer than 60 s |
| Game.EndReturnsToTitle | src/js/game.js:352-364 | the end screen returns to the title iff a key is down after KeyT is consumed or the pointer is down; the round's state is left as it was |
| Game.InitialIsValid | src/js/game.js:15-48 | the page-load state satisfies the game invariant |
| Game.StartGameIsValid | src/js/game.js:93-116 | a new round satisfies the game invariant whenever the pointer state it keeps satisfies the pointer invariant |
| Game.UpdatePreservesValid | src/js/game.js:368-388 | every frame keeps the camera on the map, all entities well-formed, the hero on the map off the title screen, the pointer invariant, and the hero's velocity in [−1, 1] on both axes |
| Game.HeroVelocityBounded | src/js/game.js:317-350 | under the pointer invariant, whichever input steers, the hero's velocity is in [−1, 1] on both axes |
| Game.HandleInput | src/js/inputs/keyboard.js:21-30 | the keydown/keyup listeners change only the key table; the pointer listeners (inputs/pointer.js:34-58) change only the pointer state; a frame (game.js:368-388) runs update(); the rest of the game state waits for the next frame |
| Game.RunPreservesValid | src/js/game.js:368-388 | any interleaving of key events, pointer events and frames keeps the game invariant: hero present and on the map during a round, camera on the map, entities well-formed, pointer invariant, hero velocity in [−1, 1] |

## Left out

- The game loop, `toggleLoop`, the visibility and pause handlers, `onload` and `onresize` (game.js:466-528). These are browser scheduling. A frame's time and elapsed time are parameters instead, and pausing is not modelled.
- All drawing: `render`, `blit`, `renderEntity`, `renderMap`, `renderCountdown` and `debugCameraWindow`. These are canvas output. `renderText` is modelled only as the list of draws it issues.
- `pointerMapPosition` and `canvasPointerPosition`. They depend on canvas and window sizes, and `clamp` is not part of this model. `screenPointerPosition` only returns the pointer's `[x, y]`, which is `PointerState`'s `x.pos` and `y.pos`. `pointerLocation` is modelled by passing the event's page coordinates.
- `velocityForTarget` and `positionOnCircle`. They are unused trigonometry on floats.
- The `share` call on the end screen. Only the fact that it is requested is modelled, as `Frame.shared`.
- The Konami "mode on" banner, which is rendering. The Konami index is modelled only for its effect on key consumption.
- `createRandSeed`, `setRandSeed`, `getRandSeed`, `loadImg` and `initCharset`. They use `btoa`, the URL and history, and image loading. `prng()` itself is a parameter `p` in [0, 1).
- speech.js, share.js, storage.js and monetization.js. They are thin wrappers over browser APIs.
- The build scripts: build.js, scripts/ and rollup-plugin-dataurl.js.
- Floating point: all positions and times are exact reals. `Math.cos(Math.PI / 4)` is the double literal 0.7071067811865476, and proofs use only that it lies in (0, 1).
- `e.preventDefault()` in the event handlers. It has no effect on the game state.
- Dim.Intersection: states positive width and height only when both rectangles are non-degenerate. A zero-width rectangle lying strictly across another one does intersect it, and the resulting intersection has zero width.
- Camera.ClampAxis: the range bound is stated only for entities no larger than the map. For a larger one, the source's first branch puts it at 0 and the second at a negative position.
- Interpolation.LerpArrayAtKnot: holds for exact reals only. In doubles the knot position can round below k: 22 * (15 / 22) is 14.999999999999998, so lerpArray on 23 elements at t = 15/22 returns element 14, not element 15.
- Interpolation.SmoothLerpArrayAtKnot: holds for exact reals only. In doubles 49 * (1 / 49) is 0.9999999999999999, so on 50 elements at t = 1/49 the floor index is 0 and the result lies between elements 0 and 1 instead of equalling element 1.
- Interpolation.SmoothLerpArray: an empty array with 0 < t < 1 gives NaN in the source (lerp of two undefined values). The model folds NaN into `Undefined` and does not tell it apart from undefined.
- Text.AlignRightEndsAtX: holds only for messages without astral characters. text.js measures `msg.length` in UTF-16 units but draws one glyph per code point, so a lone astral character right-aligned at 0 ends at −8 (`Text.AstralCharacterMisaligns`).
- Text.AlignCenterCentresOnX: holds only for messages without astral characters, for the same reason; a lone astral character centred at 0 has its midpoint at −4.
- Game.Update: requires the hero to exist whenever the game screen is showing. On the game screen without a hero, the source would throw a TypeError.

=== FILE: camera.dfy ===
/** The edge-snapping camera window of game.js, and constrainToViewport which
    clamps an entity to the map. The camera shows a 320x240 part of the
    640x480 map; the hero may roam a window inset 100 px left and right and
    50 px top and bottom of it before the camera snaps to follow. */
module Camera {
  import opened Js
  import opened Entity

  const MAP_WIDTH: real := 640.0
  const MAP_HEIGHT: real := 480.0
  const CAMERA_WIDTH: real := 320.0
  const CAMERA_HEIGHT: real := 240.0
  const CAMERA_WINDOW_X: real := 100.0
  const CAMERA_WINDOW_Y: real := 50.0
  const CAMERA_WINDOW_WIDTH: real := CAMERA_WIDTH - 2.0 * CAMERA_WINDOW_X
  const CAMERA_WINDOW_HEIGHT: real := CAMERA_HEIGHT - 2.0 * CAMERA_WINDOW_Y

  /** cameraX, cameraY: the top-left corner of the visible part of the map. */
  datatype Camera = Camera(x: real, y: real)

  /** The camera shows only the map. */
  predicate InBounds(c: Camera)
  {
    0.0 <= c.x <= MAP_WIDTH - CAMERA_WIDTH && 0.0 <= c.y <= MAP_HEIGHT - CAMERA_HEIGHT
  }

  /** One axis of constrainToViewport: clamp a position to [0, mapSize - size].
      An entity larger than the map is moved to mapSize - size, left of 0, unless it was already left of 0. */
  function ClampAxis(pos: real, size: real, mapSize: real): (r: real)
    ensures size <= mapSize ==> 0.0 <= r <= mapSize - size
    ensures 0.0 <= pos <= mapSize - size ==> r == pos
  {
    if pos < 0.0 then 0.0
    else if pos > mapSize - size then mapSize - size
    else pos
  }

  /** The clamped position is the point of the allowed range nearest to the original one. */
  lemma ClampAxisIsNearest(pos: real, size: real, mapSize: real, z: real)
    requires 0.0 <= z <= mapSize - size
    ensures Abs(ClampAxis(pos, size, mapSize) - pos) <= Abs(z - pos)
  {
  }

  /** constrainToViewport(entity): keep the entity on the map. */
  function ConstrainToViewport(e: Entity): (r: Entity)
    ensures r == e.(x := r.x, y := r.y)
    ensures e.w <= MAP_WIDTH ==> 0.0 <= r.x <= MAP_WIDTH - e.w
    ensures e.h <= MAP_HEIGHT ==> 0.0 <= r.y <= MAP_HEIGHT - e.h
    ensures OnMap(e) ==> r == e
  {
    e.(x := ClampAxis(e.x, e.w, MAP_WIDTH), y := ClampAxis(e.y, e.h, MAP_HEIGHT))
  }

  /** The entity lies entirely on the map. */
  predicate OnMap(e: Entity)
  {
    0.0 <= e.x <= MAP_WIDTH - e.w && 0.0 <= e.y <= MAP_HEIGHT - e.h
  }

  /** Clamping twice is clamping once. */
  lemma ConstrainIdempotent(e: Entity)
    requires e.w <= MAP_WIDTH && e.h <= MAP_HEIGHT
    ensures ConstrainToViewport(ConstrainToViewport(e)) == ConstrainToViewport(e)
  {
  }

  /** One axis of updateCameraWindow. With the window [c + margin, c + margin + window]:
      a hero left of it snaps the camera back (not below 0, and only when the
      camera is not already at 0); a hero right of it snaps the camera forward
      (not beyond mapSize - viewSize, and only while the window's far edge is
      inside the map). */
  function SnapAxis(c: real, pos: real, size: real, margin: real, window: real, mapSize: real, viewSize: real): real
  {
    if 0.0 < c && pos < c + margin then Max(0.0, pos - margin)
    else if c + margin + window < mapSize && pos + size > c + margin + window then
      Min(mapSize - viewSize, pos + size - (margin + window))
    else c
  }

  /** The geometry both axes satisfy: the window is centred in the view and the view fits the map. */
  predicate Geometry(margin: real, window: real, mapSize: real, viewSize: real)
  {
    0.0 <= margin && 0.0 <= window && margin + window + margin == viewSize && viewSize <= mapSize
  }

  /** The snap keeps the camera on the map. */
  lemma SnapAxisInBounds(c: real, pos: real, size: real, margin: real, window: real, mapSize: real, viewSize: real)
    requires Geometry(margin, window, mapSize, viewSize)
    requires 0.0 <= c <= mapSize - viewSize
    ensures 0.0 <= SnapAxis(c, pos, size, margin, window, mapSize, viewSize) <= mapSize - viewSize
  {
  }

  /** A hero inside the window does not move the camera. */
  lemma SnapAxisDeadZone(c: real, pos: real, size: real, margin: real, window: real, mapSize: real, viewSize: real)
    requires c + margin <= pos && pos + size <= c + margin + window
    ensures SnapAxis(c, pos, size, margin, window, mapSize, viewSize) == c
  {
  }

  /** After the snap a hero no larger than the window is inside the window,
      except where the camera stopped at an edge of the map. */
  lemma SnapAxisTracks(c: real, pos: real, size: real, margin: real, window: real, mapSize: real, viewSize: real)
    requires Geometry(margin, window, mapSize, viewSize)
    requires 0.0 <= c <= mapSize - viewSize
    requires 0.0 <= size <= window
    ensures var c' := SnapAxis(c, pos, size, margin, window, mapSize, viewSize);
            (c' + margin <= pos || c' == 0.0) && (pos + size <= c' + margin + window || c' == mapSize - viewSize)
  {
  }

  /** updateCameraWindow(): snap each axis of the camera to follow the hero. */
  function UpdateCameraWindow(cam: Camera, hero: Entity): (r: Camera)
    ensures InBounds(cam) ==> InBounds(r)
    ensures InWindow(cam, hero) ==> r == cam
  {
    var x := SnapAxis(cam.x, hero.x, hero.w, CAMERA_WINDOW_X, CAMERA_WINDOW_WIDTH, MAP_WIDTH, CAMERA_WIDTH);
    var y := SnapAxis(cam.y, hero.y, hero.h, CAMERA_WINDOW_Y, CAMERA_WINDOW_HEIGHT, MAP_HEIGHT, CAMERA_HEIGHT);
    assert InBounds(cam) ==> InBounds(Camera(x, y)) by {
      if InBounds(cam) {
        SnapAxisInBounds(cam.x, hero.x, hero.w, CAMERA_WINDOW_X, CAMERA_WINDOW_WIDTH, MAP_WIDTH, CAMERA_WIDTH);
        SnapAxisInBounds(cam.y, hero.y, hero.h, CAMERA_WINDOW_Y, CAMERA_WINDOW_HEIGHT, MAP_HEIGHT, CAMERA_HEIGHT);
      }
    }
    Camera(x, y)
  }

  /** The hero lies inside the camera window
      [cameraX + 100, cameraX + 220] x [cameraY + 50, cameraY + 190]. */
  predicate InWindow(cam: Camera, hero: Entity)
  {
    && cam.x + CAMERA_WINDOW_X <= hero.x && hero.x + hero.w <= cam.x + CAMERA_WINDOW_X + CAMERA_WINDOW_WIDTH
    && cam.y + CAMERA_WINDOW_Y <= hero.y && hero.y + hero.h <= cam.y + CAMERA_WINDOW_Y + CAMERA_WINDOW_HEIGHT
  }

  /** After an update the hero (at most 120x140) is inside the camera window, on
      each axis where the camera has not stopped at the edge of the map. */
  lemma CameraTracksHero(cam: Camera, hero: Entity)
    requires InBounds(cam)
    requires 0.0 <= hero.w <= CAMERA_WINDOW_WIDTH && 0.0 <= hero.h <= CAMERA_WINDOW_HEIGHT
    ensures var r := UpdateCameraWindow(cam, hero);
            && (r.x + CAMERA_WINDOW_X <= hero.x || r.x == 0.0)
            && (hero.x + hero.w <= r.x + CAMERA_WINDOW_X + CAMERA_WINDOW_WIDTH || r.x == MAP_WIDTH - CAMERA_WIDTH)
            && (r.y + CAMERA_WINDOW_Y <= hero.y || r.y == 0.0)
            && (hero.y + hero.h <= r.y + CAMERA_WINDOW_Y + CAMERA_WINDOW_HEIGHT || r.y == MAP_HEIGHT - CAMERA_HEIGHT)
  {
    SnapAxisTracks(cam.x, hero.x, hero.w, CAMERA_WINDOW_X, CAMERA_WINDOW_WIDTH, MAP_WIDTH, CAMERA_WIDTH);
    SnapAxisTracks(cam.y, hero.y, hero.h, CAMERA_WINDOW_Y, CAMERA_WINDOW_HEIGHT, MAP_HEIGHT, CAMERA_HEIGHT);
  }
}

=== FILE: collision.dfy ===
/** AABB collision of game.js: the overlap test between two entities and the
    "wall sliding" response that pushes the moving entity out of an obstacle
    along one axis, chosen from the signs of its velocity. */
module Collision {
  import opened Js
  import opened Entity
  import Dim

  /** The record testAABBCollision returns: both far corners and the verdict. */
  datatype AabbTest = AabbTest(entity1MaxX: real, entity1MaxY: real, entity2MaxX: real, entity2MaxY: real, collide: bool)

  /** testAABBCollision(entity1, entity2). */
  function TestAabbCollision(e1: Entity, e2: Entity): (t: AabbTest)
    ensures t.entity1MaxX == e1.x + e1.w && t.entity1MaxY == e1.y + e1.h
    ensures t.entity2MaxX == e2.x + e2.w && t.entity2MaxY == e2.y + e2.h
    ensures t.collide <==> e1.x < e2.x + e2.w && e2.x < e1.x + e1.w && e1.y < e2.y + e2.h && e2.y < e1.y + e1.h
  {
    var t := AabbTest(e1.x + e1.w, e1.y + e1.h, e2.x + e2.w, e2.y + e2.h, false);
    t.(collide := e1.x < t.entity2MaxX && t.entity1MaxX > e2.x && e1.y < t.entity2MaxY && t.entity1MaxY > e2.y)
  }

  /** The verdict does not depend on the order of the entities. */
  lemma CollideSymmetric(a: Entity, b: Entity)
    ensures TestAabbCollision(a, b).collide == TestAabbCollision(b, a).collide
  {
  }

  /** An entity's box as a rectangle of utils/dim.js. */
  function Box(e: Entity): Dim.Rect
  {
    Dim.Rect(e.x, e.y, e.w, e.h)
  }

  /** For entities of positive size the test agrees with rect.intersects. */
  lemma CollideIsRectIntersects(a: Entity, b: Entity)
    requires a.w > 0.0 && a.h > 0.0 && b.w > 0.0 && b.h > 0.0
    ensures TestAabbCollision(a, b).collide == Dim.Intersects(Box(a), Box(b))
  {
  }

  /** correctAABBCollision(entity1, entity2, test): move entity1 back out of
      entity2 along the axis it hit first. `deltaMax*` is how far entity1's far
      edge went past entity2's near edge, `deltaMin*` how far entity2's far edge
      is past entity1's near edge. The obstacle is not changed (it is not returned). */
  function CorrectAabbCollision(e1: Entity, e2: Entity, test: AabbTest): (r: Entity)
    ensures r == e1.(x := r.x, y := r.y)
    ensures r.x == e1.x || r.y == e1.y
    ensures e1.velX == 0.0 && e1.velY == 0.0 ==> r == e1
  {
    var deltaMaxX := test.entity1MaxX - e2.x;
    var deltaMaxY := test.entity1MaxY - e2.y;
    var deltaMinX := test.entity2MaxX - e1.x;
    var deltaMinY := test.entity2MaxY - e1.y;
    if e1.velX > 0.0 && e1.velY > 0.0 then
      // moving down/right
      if deltaMaxX < deltaMaxY then e1.(x := e1.x - deltaMaxX) else e1.(y := e1.y - deltaMaxY)
    else if e1.velX > 0.0 && e1.velY < 0.0 then
      // moving up/right
      if deltaMaxX < deltaMinY then e1.(x := e1.x - deltaMaxX) else e1.(y := e1.y + deltaMinY)
    else if e1.velX > 0.0 then
      e1.(x := e1.x - deltaMaxX)
    else if e1.velX < 0.0 && e1.velY > 0.0 then
      // moving down/left
      if deltaMinX < deltaMaxY then e1.(x := e1.x + deltaMinX) else e1.(y := e1.y - deltaMaxY)
    else if e1.velX < 0.0 && e1.velY < 0.0 then
      // moving up/left
      if deltaMinX < deltaMinY then e1.(x := e1.x + deltaMinX) else e1.(y := e1.y + deltaMinY)
    else if e1.velX < 0.0 then
      e1.(x := e1.x + deltaMinX)
    else if e1.velY > 0.0 then
      e1.(y := e1.y - deltaMaxY)
    else if e1.velY < 0.0 then
      e1.(y := e1.y + deltaMinY)
    else
      e1
  }

  /** A detected collision of an entity in motion is corrected on exactly one axis. */
  lemma CorrectionMovesExactlyOneAxis(e1: Entity, e2: Entity)
    requires TestAabbCollision(e1, e2).collide
    requires e1.velX != 0.0 || e1.velY != 0.0
    ensures var r := CorrectAabbCollision(e1, e2, TestAabbCollision(e1, e2));
            (r.x != e1.x) != (r.y != e1.y)
  {
  }

  /** The corrected axis ends flush against the obstacle's side it hit, on the
      side opposite to the motion: moving right, its right edge meets the
      obstacle's left edge; moving up, its top meets the obstacle's bottom. */
  lemma CorrectionEndsFlush(e1: Entity, e2: Entity)
    requires TestAabbCollision(e1, e2).collide
    ensures var r := CorrectAabbCollision(e1, e2, TestAabbCollision(e1, e2));
            && (r.x != e1.x && e1.velX > 0.0 ==> r.x + e1.w == e2.x && r.x < e1.x)
            && (r.x != e1.x && e1.velX < 0.0 ==> r.x == e2.x + e2.w && r.x > e1.x)
            && (r.y != e1.y && e1.velY > 0.0 ==> r.y + e1.h == e2.y && r.y < e1.y)
            && (r.y != e1.y && e1.velY < 0.0 ==> r.y == e2.y + e2.h && r.y > e1.y)
            && (r.x != e1.x ==> e1.velX != 0.0)
            && (r.y != e1.y ==> e1.velY != 0.0)
  {
  }

  /** After correcting a detected collision of an entity in motion, testing the
      pair again reports no collision. */
  lemma CorrectionSeparates(e1: Entity, e2: Entity)
    requires TestAabbCollision(e1, e2).collide
    requires e1.velX != 0.0 || e1.velY != 0.0
    ensures !TestAabbCollision(CorrectAabbCollision(e1, e2, TestAabbCollision(e1, e2)), e2).collide
  {
    CorrectionMovesExactlyOneAxis(e1, e2);
    CorrectionEndsFlush(e1, e2);
  }

  /** Moving diagonally, the push is the smaller of the two penetrations in the
      direction of travel (ties push along y). */
  lemma DiagonalPushIsShallowest(e1: Entity, e2: Entity)
    requires e1.velX != 0.0 && e1.velY != 0.0
    ensures var t := TestAabbCollision(e1, e2);
            var r := CorrectAabbCollision(e1, e2, t);
            var px := if e1.velX > 0.0 then t.entity1MaxX - e2.x else t.entity2MaxX - e1.x;
            var py := if e1.velY > 0.0 then t.entity1MaxY - e2.y else t.entity2MaxY - e1.y;
            Abs(r.x - e1.x) + Abs(r.y - e1.y) == Abs(Min(px, py)) &&
            (px < py ==> r.y == e1.y) && (py <= px ==> r.x == e1.x)
  {
  }

  /** The pass of update() that tests the hero against every other entity in
      list order, correcting it after each detected collision. */
  function ResolveHeroCollisions(hero: Entity, others: seq<Entity>): (r: Entity)
    ensures r == hero.(x := r.x, y := r.y)
    ensures hero.velX == 0.0 && hero.velY == 0.0 ==> r == hero
    decreases |others|
  {
    if |others| == 0 then hero
    else
      var t := TestAabbCollision(hero, others[0]);
      var h := if t.collide then CorrectAabbCollision(hero, others[0], t) else hero;
      ResolveHeroCollisions(h, others[1..])
  }

  /** Against a single obstacle the pass leaves the hero clear of it whenever it is moving. */
  lemma ResolveSingleSeparates(hero: Entity, obstacle: Entity)
    requires hero.velX != 0.0 || hero.velY != 0.0
    ensures !TestAabbCollision(ResolveHeroCollisions(hero, [obstacle]), obstacle).collide
  {
    if TestAabbCollision(hero, obstacle).collide {
      CorrectionSeparates(hero, obstacle);
    }
    assert [obstacle][1..] == [];
  }
}

=== FILE: dim.dfy ===
/** Rectangles of utils/dim.js: a position and a size whose width or height may
    be negative, read through normalised left/top/right/bottom edges (y grows
    downward, as on a canvas). */
module Dim {
  import opened Js

  datatype Rect = Rect(x: real, y: real, width: real, height: real)

  function Left(r: Rect): (left: real)
  {
    if r.width > 0.0 then r.x else r.x + r.width
  }

  function Top(r: Rect): (top: real)
  {
    if r.height > 0.0 then r.y else r.y + r.height
  }

  function Right(r: Rect): (right: real)
    ensures Left(r) <= right
    ensures right - Left(r) == Abs(r.width)
  {
    if r.width > 0.0 then r.x + r.width else r.x
  }

  function Bottom(r: Rect): (bottom: real)
    ensures Top(r) <= bottom
    ensures bottom - Top(r) == Abs(r.height)
  {
    if r.height > 0.0 then r.y + r.height else r.y
  }

  /** Edge-inclusive point test. */
  predicate Contains(r: Rect, px: real, py: real)
  {
    Left(r) <= px <= Right(r) && Top(r) <= py <= Bottom(r)
  }

  /** Strict overlap test: rectangles that only share an edge do not intersect. */
  predicate Intersects(a: Rect, b: Rect)
  {
    Left(a) < Right(b) && Left(b) < Right(a) && Top(a) < Bottom(b) && Top(b) < Bottom(a)
  }

  /** A point strictly inside a rectangle. */
  predicate Interior(r: Rect, px: real, py: real)
  {
    Left(r) < px < Right(r) && Top(r) < py < Bottom(r)
  }

  /** Both corners of the normalised rectangle are contained, whatever the sign of the size. */
  lemma ContainsCorners(r: Rect)
    ensures Contains(r, Left(r), Top(r))
    ensures Contains(r, Right(r), Bottom(r))
    ensures Contains(r, r.x, r.y)
    ensures Contains(r, r.x + r.width, r.y + r.height)
  {
  }

  lemma IntersectsSymmetric(a: Rect, b: Rect)
    ensures Intersects(a, b) <==> Intersects(b, a)
  {
  }

  /** Touching along a vertical or horizontal edge is not intersecting. */
  lemma TouchingDoesNotIntersect(a: Rect, b: Rect)
    requires Right(a) == Left(b) || Bottom(a) == Top(b)
    ensures !Intersects(a, b)
  {
  }

  /** A rectangle with a non-zero width and height, one that has interior points. */
  predicate NonDegenerate(r: Rect)
  {
    r.width != 0.0 && r.height != 0.0
  }

  /** Two rectangles of non-zero size intersect exactly when some point lies strictly inside both. */
  lemma IntersectsIffCommonInteriorPoint(a: Rect, b: Rect)
    requires NonDegenerate(a) && NonDegenerate(b)
    ensures Intersects(a, b) <==> exists px, py :: Interior(a, px, py) && Interior(b, px, py)
  {
    if Intersects(a, b) {
      var px := (Max(Left(a), Left(b)) + Min(Right(a), Right(b))) / 2.0;
      var py := (Max(Top(a), Top(b)) + Min(Bottom(a), Bottom(b))) / 2.0;
      assert Interior(a, px, py) && Interior(b, px, py);
    }
  }

  /** r.intersection(s): the overlap of two rectangles, or rect(0, 0, 0, 0) when they do not intersect. */
  function Intersection(a: Rect, b: Rect): (r: Rect)
    ensures !Intersects(a, b) ==> r == Rect(0.0, 0.0, 0.0, 0.0)
    ensures Intersects(a, b) ==> r.width >= 0.0 && r.height >= 0.0
    ensures Intersects(a, b) && NonDegenerate(a) && NonDegenerate(b) ==> r.width > 0.0 && r.height > 0.0
    ensures Intersects(a, b) ==>
              Left(a) <= Left(r) && Left(b) <= Left(r) && Right(r) <= Right(a) && Right(r) <= Right(b) &&
              Top(a) <= Top(r) && Top(b) <= Top(r) && Bottom(r) <= Bottom(a) && Bottom(r) <= Bottom(b)
  {
    if !Intersects(a, b) then Rect(0.0, 0.0, 0.0, 0.0)
    else
      var left := Max(Left(a), Left(b));
      var top := Max(Top(a), Top(b));
      Rect(left, top, Min(Right(a), Right(b)) - left, Min(Bottom(a), Bottom(b)) - top)
  }

  /** The intersection does not depend on the order of its arguments. */
  lemma IntersectionCommutes(a: Rect, b: Rect)
    ensures Intersection(a, b) == Intersection(b, a)
  {
    IntersectsSymmetric(a, b);
  }

  /** A point is in the intersection of two intersecting rectangles exactly when it is in both. */
  lemma IntersectionContainsIffBoth(a: Rect, b: Rect, px: real, py: real)
    requires Intersects(a, b)
    ensures Contains(Intersection(a, b), px, py) <==> Contains(a, px, py) && Contains(b, px, py)
  {
  }
}

=== FILE: entity.dfy ===
/** Entities of game.js: the sprite atlas, createEntity and updateEntity
    (animation frame and position advance over one frame of elapsed time). */
module Entity {
  import opened Js

  /** Entity types; the atlas maps each one to its frames and speed. */
  datatype Kind = Hero | Foe

  /** A sprite's rectangle on the tileset, in px. */
  datatype Sprite = Sprite(x: int, y: int, w: int, h: int)

  /** ATLAS[type].move: the frames of the only action, 'move'. */
  function MoveFrames(kind: Kind): (frames: seq<Sprite>)
    ensures |frames| > 0
    ensures forall i :: 0 <= i < |frames| ==> frames[i].w == 16 && frames[i].h == 18
  {
    match kind
    case Hero => [Sprite(0, 0, 16, 18), Sprite(16, 0, 16, 18), Sprite(32, 0, 16, 18), Sprite(48, 0, 16, 18), Sprite(64, 0, 16, 18)]
    case Foe => [Sprite(0, 0, 16, 18)]
  }

  /** ATLAS[type].speed, in px per second. */
  function Speed(kind: Kind): real
  {
    match kind
    case Hero => 100.0
    case Foe => 0.0
  }

  /** Duration of one animation frame, in seconds. */
  const FRAME_DURATION: real := 0.1

  /** Math.cos(Math.PI / 4) as a double; only 0 < RADIUS_ONE_AT_45_DEG < 1 is used in proofs. */
  const RADIUS_ONE_AT_45_DEG: real := 0.7071067811865476

  /** An entity record. `x`, `y` are its top-left corner in map space; the
      move* fields hold the press times of the four direction keys (hero only). */
  datatype Entity = Entity(
    kind: Kind,
    frame: int,
    frameTime: real,
    x: real,
    y: real,
    w: real,
    h: real,
    velX: real,
    velY: real,
    speed: real,
    moveDown: real,
    moveLeft: real,
    moveRight: real,
    moveUp: real)

  /** The size and speed come from the atlas and the frame indexes the entity's frames. */
  predicate WellFormed(e: Entity)
  {
    && e.w == MoveFrames(e.kind)[0].w as real
    && e.h == MoveFrames(e.kind)[0].h as real
    && e.speed == Speed(e.kind)
    && 0 <= e.frame < |MoveFrames(e.kind)|
  }

  /** createEntity(type, x, y): first frame, at rest, sized after its first sprite. */
  function CreateEntity(kind: Kind, x: real, y: real): (e: Entity)
    ensures WellFormed(e)
    ensures e.kind == kind && e.x == x && e.y == y
    ensures e.w == 16.0 && e.h == 18.0
    ensures e.frame == 0 && e.frameTime == 0.0
    ensures e.velX == 0.0 && e.velY == 0.0
    ensures e.moveDown == 0.0 && e.moveLeft == 0.0 && e.moveRight == 0.0 && e.moveUp == 0.0
  {
    var sprite := MoveFrames(kind)[0];
    Entity(kind, 0, 0.0, x, y, sprite.w as real, sprite.h as real, 0.0, 0.0, Speed(kind), 0.0, 0.0, 0.0, 0.0)
  }

  /** The scale applied to the distance: RADIUS_ONE_AT_45_DEG when both velocity
      components are non-zero (truthy), 1 otherwise. */
  function DiagonalScale(velX: real, velY: real): (s: real)
    ensures 0.0 < s <= 1.0
    ensures s == 1.0 <==> velX == 0.0 || velY == 0.0
  {
    if velX != 0.0 && velY != 0.0 then RADIUS_ONE_AT_45_DEG else 1.0
  }

  /** updateEntity(entity) with elapsedTime in seconds. */
  function UpdateEntity(e: Entity, elapsed: real): (r: Entity)
    // only the animation clock and the position change
    ensures r == e.(frame := r.frame, frameTime := r.frameTime, x := r.x, y := r.y)
    // the frame advances by at most one per call, cyclically
    ensures r.frame == e.frame || r.frame == (e.frame + 1) % |MoveFrames(e.kind)|
    ensures 0 <= e.frame < |MoveFrames(e.kind)| ==> 0 <= r.frame < |MoveFrames(e.kind)|
    // elapsed time is carried over, minus one frame's duration when the frame advanced
    ensures r.frameTime == e.frameTime + elapsed - (if e.frameTime + elapsed > FRAME_DURATION then FRAME_DURATION else 0.0)
    // at rest, or with no speed, the position is unchanged
    ensures (e.velX == 0.0 && e.velY == 0.0) || e.speed == 0.0 ==> r.x == e.x && r.y == e.y
  {
    var frameTime := e.frameTime + elapsed;
    var frames := |MoveFrames(e.kind)|;
    // JavaScript's % truncates and Dafny's is Euclidean; they agree whenever
    // e.frame + 1 is not negative, as for every well-formed entity
    var e1 :=
      if frameTime > FRAME_DURATION then e.(frameTime := frameTime - FRAME_DURATION, frame := (e.frame + 1) % frames)
      else e.(frameTime := frameTime);
    var distance := e.speed * elapsed * DiagonalScale(e.velX, e.velY);
    e1.(x := e.x + distance * e.velX, y := e.y + distance * e.velY)
  }

  /** Movement along one axis covers speed * elapsed * velocity; moving
      diagonally each axis covers that distance scaled by RADIUS_ONE_AT_45_DEG,
      strictly less than the same velocity would cover alone. */
  lemma DisplacementPerAxis(e: Entity, elapsed: real)
    ensures var r := UpdateEntity(e, elapsed);
            var straight := e.speed * elapsed;
            (e.velX == 0.0 || e.velY == 0.0 ==> r.x - e.x == straight * e.velX && r.y - e.y == straight * e.velY)
            && (e.velX != 0.0 && e.velY != 0.0 ==>
                  r.x - e.x == straight * RADIUS_ONE_AT_45_DEG * e.velX &&
                  r.y - e.y == straight * RADIUS_ONE_AT_45_DEG * e.velY)
  {
  }

  /** With positive speed and time, diagonal travel on each axis is strictly less
      than a full-speed straight move: |dx| < speed * elapsed for |velX| <= 1. */
  lemma DiagonalTravelIsReduced(e: Entity, elapsed: real)
    requires e.speed > 0.0 && elapsed > 0.0
    requires e.velX != 0.0 && e.velY != 0.0
    requires -1.0 <= e.velX <= 1.0 && -1.0 <= e.velY <= 1.0
    ensures var r := UpdateEntity(e, elapsed);
            var straight := e.speed * elapsed;
            -straight < r.x - e.x < straight && -straight < r.y - e.y < straight
  {
    var d := e.speed * elapsed;
    MulPositive(e.speed, elapsed);
    DisplacementPerAxis(e, elapsed);
    var r := UpdateEntity(e, elapsed);
    ReducedBy(d, RADIUS_ONE_AT_45_DEG, e.velX, r.x - e.x);
    ReducedBy(d, RADIUS_ONE_AT_45_DEG, e.velY, r.y - e.y);
  }

  lemma ReducedBy(d: real, c: real, v: real, m: real)
    requires d > 0.0 && 0.0 < c < 1.0 && -1.0 <= v <= 1.0
    requires m == d * c * v
    ensures -d < m < d
  {
    var k := d * c;
    MulPositive(d, 1.0 - c);
    assert d - k == d * (1.0 - c);
    assert m == k * v;
    MulNonNegative(k, 1.0 - v);
    MulNonNegative(k, 1.0 + v);
    assert k - m == k * (1.0 - v);
    assert k + m == k * (1.0 + v);
    assert -k <= m <= k;
    assert k < d;
  }

  /** updateEntity keeps an entity well-formed. */
  lemma UpdatePreservesWellFormed(e: Entity, elapsed: real)
    requires WellFormed(e)
    ensures WellFormed(UpdateEntity(e, elapsed))
  {
  }
}

=== FILE: game.dfy ===
/** The per-frame rules of game.js: the keyboard velocity ramp of
    processInputs, startGame, and the title -> game -> end -> title screen
    machine of update(). Frame times are inputs: `currentTime` in ms (what
    performance.now() returned) and `elapsed` in seconds. */
module Game {
  import opened Js
  import opened Interpolation
  import opened Entity
  import opened Collision
  import opened Camera
  import Keyboard
  import Pointer

  datatype Screen = TitleScreen | GameScreen | EndScreen

  /** Duration, in ms, of the keyboard ramp from rest to full speed. */
  const TIME_TO_FULL_SPEED: real := 150.0
  /** Length of a round, in seconds. */
  const ROUND_DURATION: real := 60.0

  const KONAMI_CODE: seq<Keyboard.Code> :=
    ["ArrowUp", "ArrowUp", "ArrowDown", "ArrowDown", "ArrowLeft", "ArrowRight", "ArrowLeft", "ArrowRight", "KeyB", "KeyA"]

  /** The module variables of game.js, with the input modules' state beside them. */
  datatype GameState = GameState(
    screen: Screen,
    countdown: real,
    konamiIndex: nat,
    camera: Camera,
    entities: seq<Entity>,
    keys: Keyboard.Keys,
    pointer: Pointer.PointerState)

  /** The state when the page loads: title screen, no round yet (the source
      leaves countdown undefined; it is never read before startGame). */
  const INITIAL: GameState := GameState(TitleScreen, 0.0, 0, Camera(0.0, 0.0), [], map[], Pointer.RELEASED)

  /** The result of one frame, and whether the END screen asked to share the game. */
  datatype Frame = Frame(state: GameState, shared: bool)

  /** konamiCode[konamiIndex]; past the end the array read is undefined and the
      key table is read under the property name "undefined". */
  function KonamiKey(i: nat): Keyboard.Code
  {
    if i < |KONAMI_CODE| then KONAMI_CODE[i] else "undefined"
  }

  /** One axis of the keyboard velocity. `moveNeg`/`movePos` are the press times
      of the two opposing keys (0 when up). The most recent press decides the
      sign (a tie is positive) and the magnitude ramps linearly from 0 to 1 over
      TIME_TO_FULL_SPEED ms after that press. */
  function KeyboardVelocity(moveNeg: real, movePos: real, currentTime: real): (v: real)
    ensures moveNeg == 0.0 && movePos == 0.0 ==> v == 0.0
    ensures -1.0 <= v <= 1.0
    ensures v < 0.0 ==> moveNeg > movePos
    ensures currentTime <= Max(moveNeg, movePos) ==> v == 0.0
    ensures (moveNeg != 0.0 || movePos != 0.0) && currentTime - Max(moveNeg, movePos) >= TIME_TO_FULL_SPEED ==>
              v == (if moveNeg > movePos then -1.0 else 1.0)
    ensures (moveNeg != 0.0 || movePos != 0.0) && 0.0 <= currentTime - Max(moveNeg, movePos) <= TIME_TO_FULL_SPEED ==>
              Abs(v) == (currentTime - Max(moveNeg, movePos)) / TIME_TO_FULL_SPEED
  {
    if moveNeg != 0.0 || movePos != 0.0 then
      (if moveNeg > movePos then -1.0 else 1.0) * Lerp(0.0, 1.0, (currentTime - Max(moveNeg, movePos)) / TIME_TO_FULL_SPEED)
    else
      0.0
  }

  /** The sign of the keyboard velocity, both ways: negative exactly when the
      negative key is the more recent press and time has passed since it;
      positive exactly when the positive key is at least as recent (a tie) and
      time has passed since it. */
  lemma KeyboardVelocitySign(moveNeg: real, movePos: real, currentTime: real)
    ensures KeyboardVelocity(moveNeg, movePos, currentTime) < 0.0 <==>
              moveNeg > movePos && currentTime > moveNeg
    ensures KeyboardVelocity(moveNeg, movePos, currentTime) > 0.0 <==>
              (moveNeg != 0.0 || movePos != 0.0) && moveNeg <= movePos && currentTime > movePos
  {
    var m := Max(moveNeg, movePos);
    var t := (currentTime - m) / TIME_TO_FULL_SPEED;
    assert currentTime > m <==> t > 0.0;
  }

  /** The ramp never decreases while the same key stays the most recent press. */
  lemma KeyboardVelocityRampMonotone(moveNeg: real, movePos: real, t1: real, t2: real)
    requires moveNeg != 0.0 || movePos != 0.0
    requires t1 <= t2
    ensures Abs(KeyboardVelocity(moveNeg, movePos, t1)) <= Abs(KeyboardVelocity(moveNeg, movePos, t2))
  {
    var m := Max(moveNeg, movePos);
    LerpMonotone(0.0, 1.0, (t1 - m) / TIME_TO_FULL_SPEED, (t2 - m) / TIME_TO_FULL_SPEED);
  }

  /** The keyboard branch of processInputs: the hero's key press times and velocity.
      isKeyDown takes a single code, so only the arrow keys count. */
  function KeyboardSteer(hero: Entity, keys: Keyboard.Keys, currentTime: real): (r: Entity)
    ensures r == hero.(moveLeft := r.moveLeft, moveRight := r.moveRight, moveUp := r.moveUp, moveDown := r.moveDown,
                       velX := r.velX, velY := r.velY)
    ensures r.moveLeft == Keyboard.IsKeyDown(keys, "ArrowLeft") && r.moveRight == Keyboard.IsKeyDown(keys, "ArrowRight")
    ensures r.moveUp == Keyboard.IsKeyDown(keys, "ArrowUp") && r.moveDown == Keyboard.IsKeyDown(keys, "ArrowDown")
    ensures -1.0 <= r.velX <= 1.0 && -1.0 <= r.velY <= 1.0
    ensures r.velX == KeyboardVelocity(r.moveLeft, r.moveRight, currentTime)
    ensures r.velY == KeyboardVelocity(r.moveUp, r.moveDown, currentTime)
  {
    var h := hero.(
      moveLeft := Keyboard.IsKeyDown(keys, "ArrowLeft"),
      moveRight := Keyboard.IsKeyDown(keys, "ArrowRight"),
      moveUp := Keyboard.IsKeyDown(keys, "ArrowUp"),
      moveDown := Keyboard.IsKeyDown(keys, "ArrowDown"));
    h.(velX := KeyboardVelocity(h.moveLeft, h.moveRight, currentTime),
       velY := KeyboardVelocity(h.moveUp, h.moveDown, currentTime))
  }

  /** The entities of a new round: the hero first, then eleven foes. */
  const START_ENTITIES: seq<Entity> := [
    CreateEntity(Hero, CAMERA_WIDTH / 2.0, CAMERA_HEIGHT / 2.0),
    CreateEntity(Foe, 10.0, 10.0),
    CreateEntity(Foe, 630.0 - 16.0, 10.0),
    CreateEntity(Foe, 630.0 - 16.0, 470.0 - 18.0),
    CreateEntity(Foe, 300.0, 200.0),
    CreateEntity(Foe, 400.0, 300.0),
    CreateEntity(Foe, 500.0, 400.0),
    CreateEntity(Foe, 10.0, 470.0 - 18.0),
    CreateEntity(Foe, 100.0, 100.0),
    CreateEntity(Foe, 100.0, 118.0),
    CreateEntity(Foe, 116.0, 118.0),
    CreateEntity(Foe, 116.0, 100.0)
  ]

  /** startGame(): a fresh round on the game screen; the input state is kept. */
  function StartGame(s: GameState): (r: GameState)
    ensures r.screen == GameScreen && r.countdown == ROUND_DURATION && r.konamiIndex == 0
    ensures r.camera == Camera(0.0, 0.0)
    ensures |r.entities| == 12
    ensures r.entities[0].kind == Hero && r.entities[0].x == 160.0 && r.entities[0].y == 120.0
    ensures forall i :: 1 <= i < |r.entities| ==> r.entities[i].kind == Foe
    ensures forall i :: 0 <= i < |r.entities| ==> WellFormed(r.entities[i]) && r.entities[i].velX == 0.0 && r.entities[i].velY == 0.0
    ensures r.keys == s.keys && r.pointer == s.pointer
  {
    s.(konamiIndex := 0, countdown := ROUND_DURATION, camera := Camera(0.0, 0.0), entities := START_ENTITIES, screen := GameScreen)
  }

  /** The hero exists whenever the game screen needs it. */
  predicate HeroExists(s: GameState)
  {
    s.screen == GameScreen ==> |s.entities| > 0
  }

  /** processInputs(): the screen-dependent reaction to the input state. */
  function ProcessInputs(s: GameState, currentTime: real): (r: Frame)
    requires HeroExists(s)
    ensures HeroExists(r.state)
    ensures r.shared <==> s.screen == EndScreen && Keyboard.IsKeyDown(s.keys, "KeyT") != 0.0
    ensures s.screen != TitleScreen ==> r.state.konamiIndex == s.konamiIndex
  {
    match s.screen
    case TitleScreen =>
      var konami := Keyboard.IsKeyUp(s.keys, KonamiKey(s.konamiIndex));
      var s1 := s.(keys := konami.keys, konamiIndex := if konami.up then s.konamiIndex + 1 else s.konamiIndex);
      // anyKeyDown() || isPointerUp(): isPointerUp is only evaluated when no key is down
      if Keyboard.IsAnyKeyDown(s1.keys) > 0 then Frame(StartGame(s1), false)
      else
        var up := Pointer.IsPointerUp(s1.pointer);
        var s2 := s1.(pointer := up.1);
        if up.0 then Frame(StartGame(s2), false) else Frame(s2, false)
    case GameScreen =>
      var hero := s.entities[0];
      var steered :=
        if Pointer.IsPointerDown(s.pointer) then
          hero.(velX := Pointer.PointerDirection(s.pointer).0, velY := Pointer.PointerDirection(s.pointer).1)
        else
          KeyboardSteer(hero, s.keys, currentTime);
      Frame(s.(entities := [steered] + s.entities[1..]), false)
    case EndScreen =>
      var share := Keyboard.IsKeyUp(s.keys, "KeyT");
      var s1 := s.(keys := share.keys);
      if Keyboard.IsAnyKeyDown(s1.keys) > 0 then Frame(s1.(screen := TitleScreen), share.up)
      else
        var up := Pointer.IsPointerUp(s1.pointer);
        Frame(s1.(pointer := up.1, screen := if up.0 then TitleScreen else EndScreen), share.up)
  }

  /** The GAME_SCREEN case of update(): count down, advance every entity, resolve
      the hero's collisions, keep it on the map and let the camera follow. */
  function GameFrame(s: GameState, elapsed: real): (r: GameState)
    requires |s.entities| > 0
    ensures r.countdown == s.countdown - elapsed
    ensures r.screen == (if s.countdown - elapsed < 0.0 then EndScreen else s.screen)
    ensures |r.entities| == |s.entities|
    ensures forall i :: 1 <= i < |r.entities| ==> r.entities[i] == UpdateEntity(s.entities[i], elapsed)
    ensures r.entities[0] == UpdateEntity(s.entities[0], elapsed).(x := r.entities[0].x, y := r.entities[0].y)
    ensures r.entities[0].w <= MAP_WIDTH && r.entities[0].h <= MAP_HEIGHT ==> OnMap(r.entities[0])
    ensures InBounds(s.camera) ==> InBounds(r.camera)
    ensures r.keys == s.keys && r.pointer == s.pointer && r.konamiIndex == s.konamiIndex
  {
    var countdown := s.countdown - elapsed;
    var moved := seq(|s.entities|, i requires 0 <= i < |s.entities| => UpdateEntity(s.entities[i], elapsed));
    var hero := ConstrainToViewport(ResolveHeroCollisions(moved[0], moved[1..]));
    s.(countdown := countdown,
       screen := if countdown < 0.0 then EndScreen else s.screen,
       entities := [hero] + moved[1..],
       camera := UpdateCameraWindow(s.camera, hero))
  }

  /** update(): process the inputs, then run the game screen's frame if the
      screen is (now) the game screen. */
  function Update(s: GameState, currentTime: real, elapsed: real): (r: Frame)
    requires HeroExists(s)
    ensures HeroExists(r.state)
  {
    var f := ProcessInputs(s, currentTime);
    if f.state.screen == GameScreen then Frame(GameFrame(f.state, elapsed), f.shared) else f
  }

  /** The screen successor of the title -> game -> end -> title cycle. */
  function Next(screen: Screen): Screen
  {
    match screen
    case TitleScreen => GameScreen
    case GameScreen => EndScreen
    case EndScreen => TitleScreen
  }

  /** A frame stays on its screen or moves one step along the cycle; the only
      exception is a round started and finished in the same frame, which
      takes an elapsed time beyond the whole round. */
  lemma ScreenTransitions(s: GameState, currentTime: real, elapsed: real)
    requires HeroExists(s)
    ensures var r := Update(s, currentTime, elapsed).state;
            r.screen == s.screen || r.screen == Next(s.screen) ||
            (s.screen == TitleScreen && r.screen == EndScreen && elapsed > ROUND_DURATION)
  {
  }

  /** On the game screen the countdown drops by the elapsed time and the round
      ends exactly when it falls below zero. */
  lemma CountdownEndsRound(s: GameState, currentTime: real, elapsed: real)
    requires s.screen == GameScreen && |s.entities| > 0
    ensures var r := Update(s, currentTime, elapsed).state;
            r.countdown == s.countdown - elapsed &&
            (r.screen == EndScreen <==> s.countdown - elapsed < 0.0) &&
            (r.screen == GameScreen <==> s.countdown - elapsed >= 0.0)
  {
  }

  /** The title screen starts a round exactly when a key other than the next
      Konami key is down, or the pointer is down; the new round has run one
      frame, which ends it at once when that frame is longer than the round. */
  lemma TitleStartsRound(s: GameState, currentTime: real, elapsed: real)
    requires s.screen == TitleScreen
    ensures var keys := Keyboard.IsKeyUp(s.keys, KonamiKey(s.konamiIndex)).keys;
            var r := Update(s, currentTime, elapsed).state;
            (r.screen != TitleScreen <==> Keyboard.IsAnyKeyDown(keys) > 0 || Pointer.IsPointerDown(s.pointer)) &&
            (r.screen != TitleScreen ==>
               r.countdown == ROUND_DURATION - elapsed && |r.entities| == 12 &&
               (r.screen == EndScreen <==> elapsed > ROUND_DURATION))
  {
  }

  /** The end screen returns to the title exactly when a key is still down once
      the share key has been consumed, or the pointer is down; the round's
      entities and camera are left as they were. */
  lemma EndReturnsToTitle(s: GameState, currentTime: real, elapsed: real)
    requires s.screen == EndScreen
    ensures var keys := Keyboard.IsKeyUp(s.keys, "KeyT").keys;
            var r := Update(s, currentTime, elapsed).state;
            (r.screen == TitleScreen <==> Keyboard.IsAnyKeyDown(keys) > 0 || Pointer.IsPointerDown(s.pointer)) &&
            r.screen != GameScreen && r.entities == s.entities && r.camera == s.camera && r.countdown == s.countdown
  {
  }

  /** Everything the game keeps true from one frame to the next: the hero is
      there and on the map whenever a round is on, the camera stays on the map,
      every entity is well-formed, the pointer module keeps its invariant and
      the hero's velocity stays within [-1, 1] on each axis. */
  predicate Valid(s: GameState)
  {
    && HeroExists(s)
    && InBounds(s.camera)
    && (forall i :: 0 <= i < |s.entities| ==> WellFormed(s.entities[i]))
    && (s.screen != TitleScreen ==> |s.entities| > 0 && OnMap(s.entities[0]))
    && Pointer.Invariant(s.pointer)
    && (|s.entities| > 0 ==> -1.0 <= s.entities[0].velX <= 1.0 && -1.0 <= s.entities[0].velY <= 1.0)
  }

  lemma InitialIsValid()
    ensures Valid(INITIAL)
  {
  }

  /** A new round is valid whenever the pointer state it keeps is. */
  lemma StartGameIsValid(s: GameState)
    requires Pointer.Invariant(s.pointer)
    ensures Valid(StartGame(s))
  {
    var r := StartGame(s);
    assert r.entities[0] == CreateEntity(Hero, 160.0, 120.0);
  }

  /** Every frame keeps the camera on the map, every entity well-formed, the
      hero on the map, the pointer invariant and the hero's velocity bound. */
  lemma UpdatePreservesValid(s: GameState, currentTime: real, elapsed: real)
    requires Valid(s)
    ensures Valid(Update(s, currentTime, elapsed).state)
  {
    var f := ProcessInputs(s, currentTime);
    if s.screen == TitleScreen && f.state.screen == GameScreen {
      StartGameIsValid(f.state);
    }
    if s.screen == GameScreen {
      HeroVelocityBounded(s, currentTime);
    }
    assert Valid(f.state);
    if f.state.screen == GameScreen {
      var r := GameFrame(f.state, elapsed);
      forall i | 0 <= i < |r.entities|
        ensures WellFormed(r.entities[i])
      {
        UpdatePreservesWellFormed(f.state.entities[i], elapsed);
      }
    }
  }

  /** With the pointer invariant of inputs/pointer.js, the hero's velocity stays
      within [-1, 1] on each axis whichever input steers it. */
  lemma HeroVelocityBounded(s: GameState, currentTime: real)
    requires s.screen == GameScreen && |s.entities| > 0
    requires Pointer.Invariant(s.pointer)
    ensures var hero := ProcessInputs(s, currentTime).state.entities[0];
            -1.0 <= hero.velX <= 1.0 && -1.0 <= hero.velY <= 1.0
  {
  }

  /** What reaches the game between and at frames. */
  datatype Input =
    | KeyDown(code: Keyboard.Code, repeat: bool, now: real)
    | KeyUp(code: Keyboard.Code)
    | PointerInput(event: Pointer.PointerEvent)
    | Tick(currentTime: real, elapsed: real)

  /** Key and pointer events reach only the input modules' state; a tick runs a frame. */
  function HandleInput(s: GameState, input: Input): (r: GameState)
    requires HeroExists(s)
    ensures HeroExists(r)
    ensures !input.Tick? ==> r == s.(keys := r.keys, pointer := r.pointer)
    ensures input.KeyDown? || input.KeyUp? ==> r.pointer == s.pointer
    ensures input.PointerInput? ==> r.keys == s.keys
  {
    match input
    case KeyDown(code, repeat, now) => s.(keys := Keyboard.OnKeyDown(s.keys, code, repeat, now))
    case KeyUp(code) => s.(keys := Keyboard.OnKeyUp(s.keys, code))
    case PointerInput(event) => s.(pointer := Pointer.Handle(s.pointer, event))
    case Tick(currentTime, elapsed) => Update(s, currentTime, elapsed).state
  }

  /** The state after a sequence of inputs, in order. */
  function Run(s: GameState, inputs: seq<Input>): (r: GameState)
    requires HeroExists(s)
    ensures HeroExists(r)
    decreases |inputs|
  {
    if |inputs| == 0 then s else Run(HandleInput(s, inputs[0]), inputs[1..])
  }

  /** From page load on, whatever the inputs, the game state stays valid. */
  lemma {:induction false} RunPreservesValid(s: GameState, inputs: seq<Input>)
    requires Valid(s)
    ensures Valid(Run(s, inputs))
    decreases |inputs|
  {
    if |inputs| > 0 {
      match inputs[0] {
        case Tick(currentTime, elapsed) => UpdatePreservesValid(s, currentTime, elapsed);
        case PointerInput(event) => Pointer.HandlePreservesInvariant(s.pointer, event);
        case _ =>
      }
      RunPreservesValid(HandleInput(s, inputs[0]), inputs[1..]);
    }
  }
}

=== FILE: interpolation.dfy ===
/** Linear interpolation helpers of utils.js: lerp, lerpArray, smoothLerpArray. */
module Interpolation {
  import opened Js

  /** lerp(min, max, t): `t` is clamped to [0, 1] and mapped linearly onto [min, max]. */
  function Lerp(min: real, max: real, t: real): (r: real)
    ensures t <= 0.0 ==> r == min
    ensures t >= 1.0 ==> r == max
    ensures min <= max ==> min <= r <= max
    ensures max <= min ==> max <= r <= min
    ensures 0.0 <= t <= 1.0 ==> r == min + (max - min) * t
  {
    if t < 0.0 then min
    else if t > 1.0 then max
    else
      LerpInRange(min, max, t);
      min * (1.0 - t) + max * t
  }

  lemma LerpInRange(min: real, max: real, t: real)
    requires 0.0 <= t <= 1.0
    ensures min * (1.0 - t) + max * t == min + (max - min) * t
    ensures min <= max ==> min <= min + (max - min) * t <= max
    ensures max <= min ==> max <= min + (max - min) * t <= min
  {
    if min <= max {
      StepWithin(min, max, t);
    } else {
      StepWithin(max, min, 1.0 - t);
      assert min + (max - min) * t == max + (min - max) * (1.0 - t);
    }
  }

  /** A fraction t of the way from lo up to hi stays within [lo, hi]. */
  lemma StepWithin(lo: real, hi: real, t: real)
    requires lo <= hi && 0.0 <= t <= 1.0
    ensures lo <= lo + (hi - lo) * t <= hi
  {
  }

  /** With min <= max, lerp never decreases as `t` grows. */
  lemma LerpMonotone(min: real, max: real, t1: real, t2: real)
    requires min <= max
    requires t1 <= t2
    ensures Lerp(min, max, t1) <= Lerp(min, max, t2)
  {
    if 0.0 <= t1 && t2 <= 1.0 {
      MulNonNegative(max - min, t2 - t1);
      assert (max - min) * (t2 - t1) == (max - min) * t2 - (max - min) * t1;
    }
  }

  /** (values.length - 1) * t: where `t` falls along an array of `n` elements, in index units. */
  function Position(n: int, t: real): real
  {
    (n - 1) as real * t
  }

  /** k / (values.length - 1): the `t` that lands exactly on index `k`. */
  function Knot(n: int, k: int): real
    requires n >= 2
  {
    k as real / (n - 1) as real
  }

  /** The knot k sits at position k, at 0 for the first index, at 1 for the
      last and strictly inside (0, 1) in between. */
  lemma KnotPosition(n: int, k: int)
    requires n >= 2 && 0 <= k < n
    ensures Position(n, Knot(n, k)) == k as real
    ensures k == 0 ==> Knot(n, k) == 0.0
    ensures 0 < k < n - 1 ==> 0.0 < Knot(n, k) < 1.0
    ensures k == n - 1 ==> Knot(n, k) == 1.0
  {
    var d := (n - 1) as real;
    assert d * (k as real / d) == k as real;
  }

  /** lerpArray(values, t): the element at floor((n-1)t), with `t` clamped to [0, 1]. */
  function LerpArray<T>(values: seq<T>, t: real): (r: Value<T>)
    ensures |values| == 0 <==> r.Undefined?
    ensures r.Defined? ==> r.value in values
    ensures |values| > 0 && t <= 0.0 ==> r == Defined(values[0])
    ensures |values| > 0 && t >= 1.0 ==> r == Defined(values[|values| - 1])
  {
    var n := |values|;
    if t < 0.0 then At(values, 0)
    else if t > 1.0 then At(values, n - 1)
    else
      LerpArrayIndexInBounds(n, t);
      At(values, Floor(Position(n, t)))
  }

  /** For t in [0, 1] the index floor((n-1)t) of a non-empty array is in bounds. */
  lemma LerpArrayIndexInBounds(n: int, t: real)
    requires 0.0 <= t <= 1.0
    ensures n > 0 ==> 0 <= Floor(Position(n, t)) <= n - 1
  {
    if n > 0 {
      var d := (n - 1) as real;
      assert 0.0 <= d * t <= d;
    }
  }

  /** At the knots t = k/(n-1) lerpArray returns exactly the k-th value. */
  lemma LerpArrayAtKnot<T>(values: seq<T>, k: nat)
    requires |values| >= 2
    requires k < |values|
    ensures LerpArray(values, Knot(|values|, k)) == Defined(values[k])
  {
    KnotPosition(|values|, k);
  }

  /** smoothLerpArray(values, t): linear interpolation between the two
      elements surrounding position (n-1)t. An empty array yields `undefined`
      for t <= 0 or t >= 1 and NaN strictly between; both are `Undefined` here. */
  function SmoothLerpArray(values: seq<real>, t: real): (r: Value<real>)
    ensures |values| == 0 <==> r.Undefined?
    ensures |values| > 0 && t <= 0.0 ==> r == Defined(values[0])
    ensures |values| > 0 && t >= 1.0 ==> r == Defined(values[|values| - 1])
  {
    var n := |values|;
    if t <= 0.0 then At(values, 0)
    else if t >= 1.0 then At(values, n - 1)
    else if n > 0 then Defined(Between(values, t))
    else Undefined
  }

  /** The interior case of smoothLerpArray: with p = (n-1)t, interpolate between
      values[floor(p)] and values[ceil(p)] by the fractional part of p. */
  function Between(values: seq<real>, t: real): (r: real)
    requires |values| > 0
    requires 0.0 < t < 1.0
    ensures var p := Position(|values|, t);
            0 <= Floor(p) <= Ceil(p) < |values| &&
            Min(values[Floor(p)], values[Ceil(p)]) <= r <= Max(values[Floor(p)], values[Ceil(p)])
  {
    var p := Position(|values|, t);
    SmoothIndicesInBounds(|values|, t);
    Lerp(values[Floor(p)], values[Ceil(p)], p - Floor(p) as real)
  }

  /** For 0 < t < 1 the floor and ceil indices are in bounds, adjacent, and the
      interpolation weight lies in [0, 1). */
  lemma SmoothIndicesInBounds(n: int, t: real)
    requires n > 0
    requires 0.0 < t < 1.0
    ensures 0 <= Floor(Position(n, t)) <= Ceil(Position(n, t)) <= n - 1
    ensures Ceil(Position(n, t)) - Floor(Position(n, t)) <= 1
    ensures 0.0 <= Position(n, t) - Floor(Position(n, t)) as real < 1.0
  {
    var d := (n - 1) as real;
    var p := Position(n, t);
    assert p == d * t;
    assert 0.0 <= p <= d;
    var lo, hi := Floor(p), Ceil(p);
    assert 0 <= lo by { assert (lo as real) + 1.0 > 0.0; }
    assert hi <= n - 1 by { assert (hi as real) - 1.0 < d; }
    assert lo <= hi && hi - lo <= 1;
  }

  /** At the knots t = k/(n-1) smoothLerpArray passes exactly through the k-th value. */
  lemma SmoothLerpArrayAtKnot(values: seq<real>, k: nat)
    requires |values| >= 2
    requires k < |values|
    ensures SmoothLerpArray(values, Knot(|values|, k)) == Defined(values[k])
  {
    var t := Knot(|values|, k);
    KnotPosition(|values|, k);
    if 0 < k < |values| - 1 {
      assert Floor(Position(|values|, t)) == k && Ceil(Position(|values|, t)) == k;
      assert Position(|values|, t) - k as real == 0.0;
      assert Between(values, t) == Lerp(values[k], values[k], 0.0) == values[k];
      assert SmoothLerpArray(values, t) == Defined(Between(values, t));
    } else if k == 0 {
      assert t == 0.0;
    } else {
      assert t == 1.0;
    }
  }
}

=== FILE: js.dfy ===
/** Small pieces of JavaScript semantics that the rest of the model relies on:
    reading an array slot that may be out of bounds, and Math.floor/Math.ceil. */
module Js {

  /** The value of an array read: either a slot's contents or `undefined`
      (the read was out of bounds, or an arithmetic result was not a number). */
  datatype Value<T> = Undefined | Defined(value: T)

  /** `a[i]` in JavaScript: the element when `i` is a valid index, `undefined` otherwise. */
  function At<T>(a: seq<T>, i: int): (r: Value<T>)
    ensures r.Defined? <==> 0 <= i < |a|
    ensures r.Defined? ==> r.value == a[i]
  {
    if 0 <= i < |a| then Defined(a[i]) else Undefined
  }

  /** Math.floor on a real. */
  function Floor(x: real): (r: int)
    ensures r as real <= x < r as real + 1.0
  {
    x.Floor
  }

  /** Math.ceil on a real. */
  function Ceil(x: real): (r: int)
    ensures r as real - 1.0 < x <= r as real
  {
    -((-x).Floor)
  }

  function Max(a: real, b: real): real { if a >= b then a else b }

  function Min(a: real, b: real): real { if a <= b then a else b }

  function Abs(a: real): real { if a < 0.0 then -a else a }

  /** The product of two non-negative reals is non-negative. */
  lemma MulNonNegative(a: real, b: real)
    requires 0.0 <= a && 0.0 <= b
    ensures 0.0 <= a * b
  {
  }

  /** The product of two positive reals is positive. */
  lemma MulPositive(a: real, b: real)
    requires 0.0 < a && 0.0 < b
    ensures 0.0 < a * b
  {
  }

  /** A fraction in [0, 1) of a positive span stays in [0, span). */
  lemma FractionOfSpan(p: real, span: real)
    requires 0.0 <= p < 1.0 && 0.0 < span
    ensures 0.0 <= p * span < span
  {
    MulNonNegative(p, span);
    MulPositive(1.0 - p, span);
    assert span - p * span == (1.0 - p) * span;
  }

  /** Comparing a scaled value with a bound is comparing the value with the bound divided by the scale. */
  lemma ScaleCompare(p: real, c: real, span: real)
    requires 0.0 < span
    ensures c <= p * span <==> c / span <= p
    ensures p * span < c <==> p < c / span
  {
    var d := c / span;
    assert d * span == c;
    assert p * span - c == (p - d) * span;
    if p - d >= 0.0 {
      MulNonNegative(p - d, span);
    } else {
      MulNonNegative(d - p, span);
      assert (d - p) * span > 0.0;
    }
  }
}

=== FILE: keyboard.dfy ===
/** The key press table of inputs/keyboard.js: KeyboardEvent.code mapped to
    the time (performance.now(), in ms) of its first non-repeat keydown. */
module Keyboard {

  type Code = string

  /** The KEYS table. */
  type Keys = map<Code, real>

  /** The result of isKeyUp: whether the key was pressed, and the table after the read. */
  datatype KeyUpResult = KeyUpResult(up: bool, keys: Keys)

  /** The keydown listener: a non-repeat event stamps the code with `now`; repeats are ignored. */
  function OnKeyDown(keys: Keys, code: Code, repeat: bool, now: real): (r: Keys)
    ensures repeat ==> r == keys
    ensures !repeat ==> code in r && r[code] == now
    ensures forall c :: c != code ==> (c in r <==> c in keys) && (c in r ==> r[c] == keys[c])
  {
    if !repeat then keys[code := now] else keys
  }

  /** releaseKey(code): delete KEYS[code]. */
  function ReleaseKey(keys: Keys, code: Code): (r: Keys)
    ensures code !in r
    ensures forall c :: c != code ==> (c in r <==> c in keys) && (c in r ==> r[c] == keys[c])
  {
    keys - {code}
  }

  /** The keyup listener. */
  function OnKeyUp(keys: Keys, code: Code): (r: Keys)
    ensures IsKeyDown(r, code) == 0.0
    ensures forall c :: c != code ==> IsKeyDown(r, c) == IsKeyDown(keys, c)
  {
    ReleaseKey(keys, code)
  }

  /** isKeyDown(code) = KEYS[code] || 0: the press time, or 0 for a code never pressed. */
  function IsKeyDown(keys: Keys, code: Code): (t: real)
    ensures code !in keys ==> t == 0.0
    ensures code in keys ==> t == keys[code]
  {
    if code in keys then keys[code] else 0.0
  }

  /** keysDown(): the codes whose press time is truthy (non-zero). */
  function KeysDown(keys: Keys): (down: set<Code>)
    ensures forall c :: c in down <==> IsKeyDown(keys, c) != 0.0
  {
    set c | c in keys && keys[c] != 0.0
  }

  /** isAnyKeyDown() = keysDown().length. */
  function IsAnyKeyDown(keys: Keys): (n: nat)
    ensures n == |KeysDown(keys)|
    ensures n > 0 <==> exists c :: IsKeyDown(keys, c) != 0.0
  {
    var down := KeysDown(keys);
    assert down != {} ==> exists c :: IsKeyDown(keys, c) != 0.0 by {
      if down != {} {
        var c :| c in down;
      }
    }
    |down|
  }

  /** isKeyUp(code): a pressed key is released ("consumed") and reported once. */
  function IsKeyUp(keys: Keys, code: Code): (r: KeyUpResult)
    ensures r.up <==> IsKeyDown(keys, code) != 0.0
    ensures r.up ==> r.keys == ReleaseKey(keys, code)
    ensures !r.up ==> r.keys == keys
  {
    if IsKeyDown(keys, code) != 0.0 then KeyUpResult(true, ReleaseKey(keys, code))
    else KeyUpResult(false, keys)
  }

  /** A pressed key reads as down at its press time until it is released. */
  lemma PressThenRead(keys: Keys, code: Code, now: real, other: Code)
    requires other != code
    ensures IsKeyDown(OnKeyDown(keys, code, false, now), code) == now
    ensures IsKeyDown(OnKeyDown(keys, code, false, now), other) == IsKeyDown(keys, other)
    ensures OnKeyDown(keys, code, true, now) == keys
  {
  }

  /** isKeyUp consumes the press: a second isKeyUp of the same code reports false,
      and isKeyDown reads 0 after it. */
  lemma IsKeyUpConsumes(keys: Keys, code: Code)
    requires IsKeyDown(keys, code) != 0.0
    ensures IsKeyUp(keys, code).up
    ensures IsKeyDown(IsKeyUp(keys, code).keys, code) == 0.0
    ensures !IsKeyUp(IsKeyUp(keys, code).keys, code).up
  {
  }

  /** Releasing one key lowers the count of keys down by exactly one when it was down. */
  lemma ReleaseCountsDown(keys: Keys, code: Code)
    ensures IsKeyDown(keys, code) != 0.0 ==> IsAnyKeyDown(ReleaseKey(keys, code)) == IsAnyKeyDown(keys) - 1
    ensures IsKeyDown(keys, code) == 0.0 ==> IsAnyKeyDown(ReleaseKey(keys, code)) == IsAnyKeyDown(keys)
  {
    var r := ReleaseKey(keys, code);
    if IsKeyDown(keys, code) != 0.0 {
      assert code in KeysDown(keys);
      assert KeysDown(r) == KeysDown(keys) - {code};
      assert |KeysDown(r)| == |KeysDown(keys)| - 1;
    } else {
      assert KeysDown(r) == KeysDown(keys);
    }
  }
}

=== FILE: pointer.dfy ===
/** The pointer state of inputs/pointer.js. Per axis the listeners keep the
    pointer position, the running extent [min, max] of the drag, and a
    direction value in [-1, 1] that grows with the drag distance, saturates
    at MIN_DISTANCE px and resets to 0 when the drag reverses. */
module Pointer {
  import opened Js
  import opened Interpolation

  /** Drag distance, in px, for the direction value to reach full magnitude. */
  const MIN_DISTANCE: real := 30.0

  /** pointerDownTime: a performance.now() stamp (0 once released), or the
      boolean `true` that isPointerUp stores. */
  datatype PressTime = Stamp(ms: real) | BoolTrue

  /** JavaScript truthiness of pointerDownTime. */
  predicate Truthy(t: PressTime)
  {
    match t
    case BoolTrue => true
    case Stamp(ms) => ms != 0.0
  }

  /** One axis: position (x), extent (minX, maxX) and direction (vX). */
  datatype Axis = Axis(pos: real, min: real, max: real, v: real)

  datatype PointerState = PointerState(x: Axis, y: Axis, downTime: PressTime)

  const ORIGIN: Axis := Axis(0.0, 0.0, 0.0, 0.0)

  /** The module's initial state, and the state after every pointerup. */
  const RELEASED: PointerState := PointerState(ORIGIN, ORIGIN, Stamp(0.0))

  /** The position lies within the drag extent and the direction within [-1, 1]. */
  predicate AxisInvariant(a: Axis)
  {
    a.min <= a.pos <= a.max && -1.0 <= a.v <= 1.0
  }

  predicate Invariant(p: PointerState)
  {
    AxisInvariant(p.x) && AxisInvariant(p.y)
  }

  /** One axis of setTouchVector, applied after the position was updated. */
  function SetTouchAxis(a: Axis): (r: Axis)
    ensures r.pos == a.pos
    ensures a.min <= a.max ==> r.min <= r.pos <= r.max
    ensures -1.0 <= a.v <= 1.0 ==> -1.0 <= r.v <= 1.0
    // moving further in the positive direction: the extent grows, the direction is positive
    ensures a.pos > a.max ==>
              r.max == a.pos && r.min == a.min && 0.0 <= r.v &&
              r.v == Lerp(0.0, 1.0, (r.max - r.min) / MIN_DISTANCE)
    ensures a.pos > a.max && a.pos - a.min >= MIN_DISTANCE ==> r.v == 1.0
    // moving further in the negative direction
    ensures a.min <= a.max && a.pos < a.min ==>
              r.min == a.pos && r.max == a.max && r.v <= 0.0 &&
              -r.v == Lerp(0.0, 1.0, (r.max - r.min) / MIN_DISTANCE)
    ensures a.pos < a.min && a.max - a.pos >= MIN_DISTANCE ==> r.v == -1.0
    // reversing to the negative side after a positive (or no) direction
    ensures a.min <= a.pos < a.max && a.v >= 0.0 ==> r == a.(min := a.pos, v := 0.0)
    // reversing to the positive side after a negative (or, at the top of the extent, no) direction
    ensures a.min < a.pos <= a.max && a.v <= 0.0 && !(a.pos < a.max && a.v >= 0.0) ==> r == a.(max := a.pos, v := 0.0)
    // otherwise nothing changes
    ensures a.min <= a.pos <= a.max && !(a.pos < a.max && a.v >= 0.0) && !(a.min < a.pos && a.v <= 0.0) ==> r == a
  {
    if a.pos > a.max then
      a.(max := a.pos, v := Lerp(0.0, 1.0, (a.pos - a.min) / MIN_DISTANCE))
    else if a.pos < a.min then
      a.(min := a.pos, v := -Lerp(0.0, 1.0, (a.max - a.pos) / MIN_DISTANCE))
    else if a.pos < a.max && a.v >= 0.0 then
      a.(min := a.pos, v := 0.0)
    else if a.min < a.pos && a.v <= 0.0 then
      a.(max := a.pos, v := 0.0)
    else
      a
  }

  /** setTouchVector: the X update reads and writes only X state, and likewise Y. */
  function SetTouchVector(p: PointerState): (r: PointerState)
    ensures r.x == SetTouchAxis(p.x) && r.y == SetTouchAxis(p.y) && r.downTime == p.downTime
  {
    p.(x := SetTouchAxis(p.x), y := SetTouchAxis(p.y))
  }

  /** The pointerdown listener: stamp the press and collapse both extents onto the
      press location. The direction values are left as they were. */
  function OnPointerDown(p: PointerState, now: real, px: real, py: real): (r: PointerState)
    ensures r.x.pos == r.x.min == r.x.max == px && r.y.pos == r.y.min == r.y.max == py
    ensures r.x.v == p.x.v && r.y.v == p.y.v
    ensures r.downTime == Stamp(now)
  {
    PointerState(Axis(px, px, px, p.x.v), Axis(py, py, py, p.y.v), Stamp(now))
  }

  /** The pointermove listener: only while the pointer is down, record the position and update the vector. */
  function OnPointerMove(p: PointerState, px: real, py: real): (r: PointerState)
    ensures !IsPointerDown(p) ==> r == p
    ensures IsPointerDown(p) ==> r == SetTouchVector(p.(x := p.x.(pos := px), y := p.y.(pos := py)))
  {
    if Truthy(p.downTime) then SetTouchVector(p.(x := p.x.(pos := px), y := p.y.(pos := py)))
    else p
  }

  /** The pointerup listener: everything back to zero. */
  function OnPointerUp(p: PointerState): (r: PointerState)
    ensures !IsPointerDown(r)
    ensures PointerDirection(r) == (0.0, 0.0)
    ensures r.x == ORIGIN && r.y == ORIGIN
  {
    RELEASED
  }

  /** isPointerDown(): whether pointerDownTime is truthy. */
  predicate IsPointerDown(p: PointerState)
  {
    Truthy(p.downTime)
  }

  /** isPointerUp(): reports true while the pointer is down; it then assigns
      pointerDownTime = (0 || true), that is `true`, so the press is NOT released. */
  function IsPointerUp(p: PointerState): (r: (bool, PointerState))
    ensures r.0 <==> IsPointerDown(p)
    ensures IsPointerDown(r.1) <==> IsPointerDown(p)
    ensures r.1.x == p.x && r.1.y == p.y
  {
    if Truthy(p.downTime) then (true, p.(downTime := BoolTrue)) else (false, p)
  }

  /** pointerDirection() = [vX, vY]. */
  function PointerDirection(p: PointerState): (d: (real, real))
    ensures Invariant(p) ==> -1.0 <= d.0 <= 1.0 && -1.0 <= d.1 <= 1.0
  {
    (p.x.v, p.y.v)
  }

  /** Polling isPointerUp again keeps reporting the same press. */
  lemma IsPointerUpDoesNotConsume(p: PointerState)
    requires IsPointerDown(p)
    ensures IsPointerUp(p).0 && IsPointerUp(IsPointerUp(p).1).0
  {
  }

  /** The input events the pointer listeners receive. */
  datatype PointerEvent = Down(now: real, px: real, py: real) | Move(px: real, py: real) | Up

  function Handle(p: PointerState, e: PointerEvent): PointerState
  {
    match e
    case Down(now, px, py) => OnPointerDown(p, now, px, py)
    case Move(px, py) => OnPointerMove(p, px, py)
    case Up => OnPointerUp(p)
  }

  /** The state after a sequence of events, in order. */
  function HandleAll(p: PointerState, events: seq<PointerEvent>): PointerState
    decreases |events|
  {
    if |events| == 0 then p else HandleAll(Handle(p, events[0]), events[1..])
  }

  /** Every listener keeps each position inside its drag extent and each direction in [-1, 1]. */
  lemma HandlePreservesInvariant(p: PointerState, e: PointerEvent)
    requires Invariant(p)
    ensures Invariant(Handle(p, e))
  {
  }

  /** Whatever events arrive, the drag invariant holds from the initial state on. */
  lemma {:induction false} InvariantAlways(p: PointerState, events: seq<PointerEvent>)
    requires Invariant(p)
    ensures Invariant(HandleAll(p, events))
    decreases |events|
  {
    if |events| > 0 {
      HandlePreservesInvariant(p, events[0]);
      InvariantAlways(Handle(p, events[0]), events[1..]);
    }
  }

  /** While the pointer is not down, moves change nothing at all. */
  lemma {:induction false} MovesWhileUpAreIgnored(p: PointerState, events: seq<PointerEvent>)
    requires !IsPointerDown(p)
    requires forall i :: 0 <= i < |events| ==> events[i].Move?
    ensures HandleAll(p, events) == p
    decreases |events|
  {
    if |events| > 0 {
      MovesWhileUpAreIgnored(Handle(p, events[0]), events[1..]);
    }
  }
}

=== FILE: prng.dfy ===
/** The pseudo random number generator of utils.js: the seedRand hash and
    Lehmer generator, and the rand/randInt/choice helpers over an abstract prng().

    JavaScript performs the hash with a mix of doubles, int32 and uint32
    conversions; every one of them (Math.imul, ^, <<, >>>, and the sums, which
    stay well inside 2^53) agrees with arithmetic modulo 2^32, so the hash is
    modelled exactly on bv32. A JavaScript string is a sequence of UTF-16 code
    units, which is what charCodeAt reads, so seeds are sequences of bv16. */
module Prng {
  import opened Js

  const FNV_OFFSET_BASIS: bv32 := 2166136261
  const FNV_PRIME: bv32 := 16777619
  const LEHMER_MULTIPLIER: bv32 := 48271
  const LOW_31_BITS: bv32 := 0x7FFF_FFFF
  const TWO_POW_31: real := 2147483648.0

  /** One xfnv1a round: h := imul(h ^ charCode, 16777619). */
  function Mix(h: bv32, unit: bv16): bv32
  {
    (h ^ (unit as bv32)) * FNV_PRIME
  }

  /** The xfnv1a rounds over a string, left to right, starting from `h`. */
  function Fnv(h: bv32, units: seq<bv16>): bv32
    decreases |units|
  {
    if |units| == 0 then h else Fnv(Mix(h, units[0]), units[1..])
  }

  /** Appending one code unit adds exactly one round at the end. */
  lemma {:induction false} FnvSnoc(h: bv32, units: seq<bv16>, u: bv16)
    ensures Fnv(h, units + [u]) == Mix(Fnv(h, units), u)
    decreases |units|
  {
    if |units| == 0 {
      assert units + [u] == [u];
    } else {
      assert (units + [u])[1..] == units[1..] + [u];
      FnvSnoc(Mix(h, units[0]), units[1..], u);
    }
  }

  /** The final avalanche of the hash: alternating shift-add and xor-shift steps,
      adding the left shifts by 13, 3 and 5 and xoring in the unsigned right
      shifts by 7 and 17, all modulo 2^32. */
  function Finalise(h: bv32): bv32
  {
    var h1 := h + (h << 13);
    var h2 := h1 ^ (h1 >> 7);
    var h3 := h2 + (h2 << 3);
    var h4 := h3 ^ (h3 >> 17);
    h4 + (h4 << 5)
  }

  /** The seed hash, written as the source's loop over the string. */
  method SeedHash(str: seq<bv16>) returns (seed: bv32)
    ensures seed == Finalise(Fnv(FNV_OFFSET_BASIS, str))
  {
    var h := FNV_OFFSET_BASIS;
    var i := 0;
    while i < |str|
      invariant 0 <= i <= |str|
      invariant h == Fnv(FNV_OFFSET_BASIS, str[..i])
    {
      FnvSnoc(FNV_OFFSET_BASIS, str[..i], str[i]);
      assert str[..i + 1] == str[..i] + [str[i]];
      h := Mix(h, str[i]);
      i := i + 1;
    }
    assert str[..i] == str;
    seed := Finalise(h);
  }

  /** The state of a generator returned by seedRand: the current Lehmer seed. */
  datatype Generator = Generator(seed: bv32)

  /** The Lehmer step seed := imul(48271, seed). */
  function Step(seed: bv32): bv32
  {
    LEHMER_MULTIPLIER * seed
  }

  /** The seed 0 is absorbing: a generator whose hash is 0 yields only zeros. */
  lemma ZeroSeedIsAbsorbing(g: Generator)
    requires g.seed == 0
    ensures Draw(g).1 == g
    ensures Draw(g).0 == 0.0
  {
  }

  /** One draw: advance the seed and return its low 31 bits divided by 2^31. */
  function Draw(g: Generator): (r: (real, Generator))
    ensures 0.0 <= r.0 < 1.0
    ensures r.1.seed == Step(g.seed)
    ensures r.0 * TWO_POW_31 == (r.1.seed & LOW_31_BITS) as int as real
  {
    var next := Step(g.seed);
    var bits := next & LOW_31_BITS;
    assert bits as int < 0x8000_0000 by {
      assert bits <= LOW_31_BITS;
    }
    ((bits as int) as real / TWO_POW_31, Generator(next))
  }

  /** seedRand(str): hash the string, then draw once and discard the value. */
  function SeedRand(str: seq<bv16>): (g: Generator)
    ensures g.seed == Step(Finalise(Fnv(FNV_OFFSET_BASIS, str)))
  {
    Draw(Generator(Finalise(Fnv(FNV_OFFSET_BASIS, str)))).1
  }

  /** The next `n` values a generator produces. */
  function Draws(g: Generator, n: nat): (r: seq<real>)
    ensures |r| == n
    ensures forall i :: 0 <= i < n ==> 0.0 <= r[i] < 1.0
    ensures n > 0 ==> r[0] == Draw(g).0
    decreases n
  {
    if n == 0 then [] else [Draw(g).0] + Draws(Draw(g).1, n - 1)
  }

  /** The string "kontra" as UTF-16 code units. */
  const KONTRA: seq<bv16> := [0x6B, 0x6F, 0x6E, 0x74, 0x72, 0x61]

  /** The example of the source's documentation: seedRand('kontra')() is
      725032550 / 2^31, the double printed as 0.33761959057301283. */
  lemma KontraFirstDraw()
    ensures Draw(SeedRand(KONTRA)).0 == 725032550.0 / TWO_POW_31
    ensures 0.3376195905730128 < Draw(SeedRand(KONTRA)).0 < 0.3376195905730129
  {
    assert Fnv(FNV_OFFSET_BASIS, KONTRA) == Mix(Mix(Mix(Mix(Mix(Mix(FNV_OFFSET_BASIS, 0x6B), 0x6F), 0x6E), 0x74), 0x72), 0x61);
  }

  /** The prng() value `p` spread over a span: p * span, in [0, span). */
  function Spread(p: real, span: real): (r: real)
    ensures 0.0 <= p < 1.0 && 0.0 < span ==> 0.0 <= r < span
  {
    SpreadInRange(p, span);
    p * span
  }

  lemma SpreadInRange(p: real, span: real)
    ensures 0.0 <= p < 1.0 && 0.0 < span ==> 0.0 <= p * span < span
  {
    if 0.0 <= p < 1.0 && 0.0 < span {
      FractionOfSpan(p, span);
    }
  }

  /** rand(min, max) = prng() * (max + 1 - min) + min, for a prng() value `p`. */
  function Rand(p: real, min: real, max: real): (r: real)
    ensures 0.0 <= p < 1.0 && min <= max ==> min <= r < max + 1.0
  {
    Spread(p, max + 1.0 - min) + min
  }

  /** randInt(min, max) = Math.floor(rand(min, max)). */
  function RandInt(p: real, min: int, max: int): (r: int)
    ensures 0.0 <= p < 1.0 && min <= max ==> min <= r <= max
  {
    Floor(Rand(p, min as real, max as real))
  }

  /** Each integer of [min, max] is drawn by exactly the prng() values of one
      interval of width 1/(max - min + 1): randInt is uniform when prng() is. */
  lemma RandIntBucket(p: real, min: int, max: int, k: int)
    requires 0.0 <= p < 1.0
    requires min <= max
    requires 0 <= k <= max - min
    ensures var span := (max - min + 1) as real;
            RandInt(p, min, max) == min + k <==> k as real / span <= p < (k + 1) as real / span
  {
    var span := (max - min + 1) as real;
    var q := p * span;
    assert Rand(p, min as real, max as real) == q + min as real;
    assert RandInt(p, min, max) == Floor(q) + min;
    ScaleCompare(p, k as real, span);
    ScaleCompare(p, (k + 1) as real, span);
  }

  /** rand() with its default arguments min = 0 and max = 1: since the span is
      max + 1 - min, the value lies in [0, 2), not [0, 1). */
  function RandDefault(p: real): (r: real)
    ensures r == 2.0 * p
    ensures 0.0 <= p < 1.0 ==> 0.0 <= r < 2.0
  {
    Rand(p, 0.0, 1.0)
  }

  /** randInt() with its default arguments min = 0 and max = 1: a coin flip,
      0 exactly when prng() is below 1/2. */
  function RandIntDefault(p: real): (r: int)
    ensures 0.0 <= p < 1.0 ==> (r == 0 <==> p < 0.5) && (r == 1 <==> 0.5 <= p)
  {
    assert 0.0 <= p < 1.0 ==> (RandInt(p, 0, 1) == 0 <==> p < 0.5) && (RandInt(p, 0, 1) == 1 <==> 0.5 <= p) by {
      if 0.0 <= p < 1.0 {
        RandIntBucket(p, 0, 1, 0);
        RandIntBucket(p, 0, 1, 1);
      }
    }
    RandInt(p, 0, 1)
  }

  /** choice(values) = values[randInt(0, values.length - 1)]. */
  function Choice<T>(values: seq<T>, p: real): (r: Value<T>)
    ensures |values| == 0 ==> r.Undefined?
    ensures 0.0 <= p < 1.0 && |values| > 0 ==> r.Defined? && r.value in values
  {
    At(values, RandInt(p, 0, |values| - 1))
  }
}

=== FILE: text.dfy ===
/** Glyph placement of text.js: renderText draws one 8x8 sprite of the alphabet
    sheet per character, offset for left, centre or right alignment. The canvas
    is an abstract sink; the model returns the list of drawImage calls. */
module Text {

  /** The characters of the alphabet sprite sheet, in sheet order. */
  const ALPHABET: string := "abcdefghijklmnopqrstuvwxyz0123456789.:!-%,/"
  /** Width and height of one glyph on the sheet, in px. */
  const CHARSET_SIZE: real := 8.0

  /** ALIGN_LEFT = 0, ALIGN_CENTER = 1, ALIGN_RIGHT = 2; any other number behaves as ALIGN_LEFT. */
  datatype Align = AlignLeft | AlignCenter | AlignRight

  /** The arguments of one ctx.drawImage(charset, sx, sy, sw, sh, dx, dy, dw, dh) call. */
  datatype Draw = Draw(sx: real, sy: real, sw: real, sh: real, dx: real, dy: real, dw: real, dh: real)

  /** String.prototype.indexOf for one character: the first position, or -1. */
  function IndexOf(s: string, c: char): (i: int)
    ensures -1 <= i < |s|
    ensures i == -1 <==> c !in s
    ensures 0 <= i ==> s[i] == c && c !in s[..i]
  {
    if |s| == 0 then -1
    else if s[0] == c then 0
    else
      var j := IndexOf(s[1..], c);
      if j == -1 then -1
      else
        assert s[..j + 1] == [s[0]] + s[1..][..j];
        j + 1
  }

  /** msg.length: JavaScript counts UTF-16 code units, two for a character outside the BMP. */
  function Utf16Length(msg: string): (n: nat)
    ensures |msg| <= n <= 2 * |msg|
    ensures InBmp(msg) ==> n == |msg|
  {
    if |msg| == 0 then 0
    else (if msg[0] as int >= 0x1_0000 then 2 else 1) + Utf16Length(msg[1..])
  }

  /** Every character is a single UTF-16 code unit. */
  predicate InBmp(msg: string)
  {
    forall i :: 0 <= i < |msg| ==> msg[i] as int < 0x1_0000
  }

  /** Source x of a character on the sheet: ALPHABET.indexOf(c) * CHARSET_SIZE. */
  function SpriteX(c: char): (sx: real)
    ensures 0.0 <= sx <==> c in ALPHABET
    ensures 0.0 <= sx ==> sx < |ALPHABET| as real * CHARSET_SIZE
    ensures c !in ALPHABET ==> sx == -CHARSET_SIZE
  {
    IndexOf(ALPHABET, c) as real * CHARSET_SIZE
  }

  /** ALIGN_OFFSET: how far left of `x` the message starts. */
  function AlignOffset(align: Align, msgWidth: real): real
  {
    match align
    case AlignRight => msgWidth
    case AlignCenter => msgWidth / 2.0
    case AlignLeft => 0.0
  }

  /** Where the i-th glyph goes: x + i*SCALED_SIZE - ALIGN_OFFSET. */
  function GlyphX(i: nat, x: real, size: real, offset: real): real
  {
    x + i as real * size - offset
  }

  lemma GlyphXStep(i: nat, x: real, size: real, offset: real)
    ensures GlyphX(i + 1, x, size, offset) == GlyphX(i, x, size, offset) + size
  {
    assert (i + 1) as real * size == i as real * size + size;
  }

  /** The draw of the i-th glyph, `size` px square, the message starting `offset` px left of `x`. */
  function Glyph(c: char, i: nat, x: real, y: real, size: real, offset: real): Draw
  {
    Draw(SpriteX(c), 0.0, CHARSET_SIZE, CHARSET_SIZE, GlyphX(i, x, size, offset), y, size, size)
  }

  /** ALIGN_OFFSET of a message: its alignment applied to its width MSG_WIDTH = msg.length * scale * 8. */
  function MessageOffset(msg: string, align: Align, scale: real): real
  {
    AlignOffset(align, Utf16Length(msg) as real * (scale * CHARSET_SIZE))
  }

  /** The glyph draws of `msg`, `size` px square, starting `offset` px left of `x`. */
  function Layout(msg: string, x: real, y: real, size: real, offset: real): (draws: seq<Draw>)
    ensures |draws| == |msg|
    ensures forall i :: 0 <= i < |draws| ==>
              draws[i].dy == y && draws[i].dw == size && draws[i].dh == size && draws[i].dx == GlyphX(i, x, size, offset)
    ensures forall i :: 0 <= i < |draws| ==>
              draws[i].sx == SpriteX(msg[i]) && draws[i].sy == 0.0 && draws[i].sw == CHARSET_SIZE && draws[i].sh == CHARSET_SIZE
  {
    seq(|msg|, i requires 0 <= i < |msg| => Glyph(msg[i], i, x, y, size, offset))
  }

  /** renderText(msg, ctx, x, y, align, scale): one draw per character of `msg`
      (the spread [...msg] iterates characters, not code units), the glyphs
      scale*8 px square, the message width counted in code units. */
  function RenderText(msg: string, x: real, y: real, align: Align, scale: real): (draws: seq<Draw>)
    ensures |draws| == |msg|
    ensures forall i :: 0 <= i < |draws| ==>
              draws[i].dy == y && draws[i].dw == scale * CHARSET_SIZE && draws[i].dh == scale * CHARSET_SIZE
    ensures forall i :: 0 <= i < |draws| ==>
              draws[i].sx == SpriteX(msg[i]) && draws[i].sy == 0.0 && draws[i].sw == CHARSET_SIZE && draws[i].sh == CHARSET_SIZE
    ensures forall i :: 0 <= i < |draws| ==>
              draws[i].dx == GlyphX(i, x, scale * CHARSET_SIZE, MessageOffset(msg, align, scale))
  {
    Layout(msg, x, y, scale * CHARSET_SIZE, MessageOffset(msg, align, scale))
  }

  /** renderText with its default arguments, align = ALIGN_LEFT and scale = 1. */
  function RenderTextDefault(msg: string, x: real, y: real): (draws: seq<Draw>)
    ensures |draws| == |msg|
    ensures forall i :: 0 <= i < |draws| ==> draws[i].dx == x + i as real * CHARSET_SIZE && draws[i].dw == CHARSET_SIZE
  {
    RenderText(msg, x, y, AlignLeft, 1.0)
  }

  /** Consecutive glyphs abut: each starts where the previous one ends. */
  lemma GlyphsAbut(msg: string, x: real, y: real, align: Align, scale: real, i: nat)
    requires i + 1 < |msg|
    ensures var d := RenderText(msg, x, y, align, scale);
            d[i + 1].dx == d[i].dx + d[i].dw
  {
    var d := RenderText(msg, x, y, align, scale);
    var size := scale * CHARSET_SIZE;
    var off := MessageOffset(msg, align, scale);
    assert d[i + 1].dx == GlyphX(i + 1, x, size, off);
    assert d[i].dx == GlyphX(i, x, size, off);
    assert d[i].dw == size;
    GlyphXStep(i, x, size, off);
  }

  /** Left alignment starts the first glyph at `x`. */
  lemma AlignLeftStartsAtX(msg: string, x: real, y: real, scale: real)
    requires |msg| > 0
    ensures RenderText(msg, x, y, AlignLeft, scale)[0].dx == x
  {
  }

  /** Right alignment ends the last glyph's right edge exactly at `x`, for a
      message whose characters are each one code unit. */
  lemma AlignRightEndsAtX(msg: string, x: real, y: real, scale: real)
    requires |msg| > 0
    requires InBmp(msg)
    ensures var d := RenderText(msg, x, y, AlignRight, scale);
            d[|msg| - 1].dx + d[|msg| - 1].dw == x
  {
    var n := |msg|;
    var d := RenderText(msg, x, y, AlignRight, scale);
    var size := scale * CHARSET_SIZE;
    assert d[n - 1].dx == x + (n - 1) as real * size - n as real * size;
    assert (n - 1) as real * size + size == n as real * size;
  }

  /** Centre alignment puts the horizontal midpoint of the message exactly at `x`,
      for a message whose characters are each one code unit. */
  lemma AlignCenterCentresOnX(msg: string, x: real, y: real, scale: real)
    requires |msg| > 0
    requires InBmp(msg)
    ensures var d := RenderText(msg, x, y, AlignCenter, scale);
            (d[0].dx + d[|msg| - 1].dx + d[|msg| - 1].dw) / 2.0 == x
  {
    var n := |msg|;
    var size := scale * CHARSET_SIZE;
    var w := n as real * size;
    var d := RenderText(msg, x, y, AlignCenter, scale);
    assert d[0].dx == x - w / 2.0;
    assert d[n - 1].dx == x + (n - 1) as real * size - w / 2.0;
    assert (n - 1) as real * size + size == w;
  }

  /** Why the alignment lemmas need a BMP message: the width is measured in
      UTF-16 units but there is one glyph per code point, so a single astral
      character is placed one glyph too far left under right alignment and
      half a glyph too far left under centre alignment. */
  lemma AstralCharacterMisaligns()
    ensures var d := RenderText("\U{1F600}", 0.0, 0.0, AlignRight, 1.0);
            |d| == 1 && d[0].dx + d[0].dw == -8.0
    ensures var d := RenderText("\U{1F600}", 0.0, 0.0, AlignCenter, 1.0);
            |d| == 1 && (d[0].dx + d[0].dx + d[0].dw) / 2.0 == -4.0
  {
    assert Utf16Length("\U{1F600}") == 2;
  }
}
